=== FILE: README.md ===
# bhrami-blogs: a Dafny model of the bilingual blog's search and content logic

The site is a Hindi/English blog. Its logic outside rendering is:

- a **bilingual search pipeline**:
  - a script classifier (`isEnglish`);
  - a debounced call to a translate route that asks an upstream service;
  - a partial-word dictionary fallback;
  - two substring matchers, one in the header search box and one in the category view;
- the category view's **pagination**;
- a **file-backed content store** (`lib/blog-loader.ts`): validation, newest-first order, lookup, category filter, search, categories and the featured list;
- a small **markdown tokenizer** for `**bold**` and `*italic*`;
- a handful of **request and state rules**:
  - the public blog list route with its `limit`;
  - the admin create/update routes;
  - related-post selection;
  - the category grid.

Each of these is modelled as pure functions over `seq<char>`, `seq<Post>` and `map<string, Record>`. The network, the file system, the clock and randomness enter as parameters.

Modules, one per concern:

- **Shared:**
  - `Wrappers`: `Option`.
  - `Text`: JavaScript `trim`, its white-space set, ASCII `toLowerCase` and `includes`.
  - `Seqs`: a stable filter and `slice` with JavaScript's index clamping.
  - `Json`: parsed JSON values, truthiness and `String(v)`.
  - `Posts`: the post record and `validateBlogPost`.
- **The search pipeline:**
  - `Classifier`.
  - `Fallback`: the dictionary, defined once; every call site is proved equal to it.
  - `Resolver`: the client's choice between the service, the dictionary and the identity.
  - `TranslateRoute`.
  - `Matcher`: both filters.
  - `QueryState`: the translate effect with explicit timer and in-flight requests.
  - `SearchBox`.
  - `CategoryView`: the category search plus pagination.
- **Content and routes:**
  - `BlogLoader`.
  - `BlogsApi`: `GET /api/blogs`, including a model of `parseInt`.
  - `AdminApi`.
  - `Markdown`.
  - `RelatedPosts`.
  - `BentoGrid`.

Headline results:

- `Markdown.ParseRoundTrip` proves that the parts `parseMarkdown` returns render back to the input.
- `Markdown.ParseFormatted` proves that the formatted parts are exactly the bold matches and the surviving italic matches, in order of position.
- `Fallback` proves the dictionary picks the first fragment in declaration order.
  - `Resolver` and `TranslateRoute.ChooseByCode` prove that every copy of the dictionary loop computes that same fallback.
- `QueryState.LateReplyOverwrites` shows the code has no guard against a late reply. A translation for an earlier query can replace the one for the query on screen.
- `CategoryView.EmptyPageWhileAPostMatches` shows the category view can draw an empty page with no page controls while a post matches (see Findings).
- `AdminApi.AcceptedButNeverLoaded` shows the admin routes accept a post that the loader then skips forever. The routes check only `id`, `title` and `content`.

## Model

| member | source | states |
|---|---|---|
| Text.Trim | app/api/translate/route.ts:29 | the trimmed text is the slice of the input between its leading and trailing white space, and it neither starts nor ends with white space |
| Text.TrimIdempotent | components/Search.tsx:64 | trimming a trimmed query changes nothing |
| Text.TrimEmptyIffAllSpace | components/Search.tsx:57 | a query trims to "" exactly when every character is white space |
| Text.Lower | lib/blog-loader.ts:101 | lowercasing keeps the length, maps each character on its own, keeps white space and leaves Devanagari unchanged |
| Text.LowerIdempotent | components/Search.tsx:174-175 | lowercasing twice is lowercasing once |
| Text.Contains | lib/blog-loader.ts:105-108 | `includes` holds exactly when the fragment occurs at some position |
| Text.ContainsEmpty | components/Search.tsx:175-193 | the empty string occurs in every string, so an empty term matches every field |
| Seqs.Filter | lib/blog-loader.ts:93 | `filter` keeps exactly the elements satisfying the predicate, each from the input, as a sub-multiset |
| Seqs.FilterKeepsOrder | lib/blog-loader.ts:93 | elements ordered in the input stay ordered in the filtered list |
| Seqs.FilterConcat | lib/blog-loader.ts:103-109 | filtering a concatenation filters each part |
| Seqs.SliceIndex | app/api/blogs/route.ts:14 | an index in range is kept, one past the end becomes the length, a negative one counts from the end, and one before the start becomes 0 |
| Seqs.Slice | app/api/blogs/route.ts:14 | `slice(a, b)` is a contiguous run of the list starting at the clamped start, as long as the clamped indices are apart (empty when they cross), and exactly `s[a..b]` for indices in range |
| Seqs.SliceDropsFromEnd | app/api/blogs/route.ts:24 | `slice(0, -n)` drops the last n elements |
| Seqs.SliceCrossing | app/api/blogs/route.ts:14 | an end index at or before the start index gives nothing |
| Seqs.SlicePrefix | app/api/blogs/route.ts:14 | `slice(0, n)` with n >= 0 is the first n elements, or all of them when there are fewer |
| Json.ToText | app/api/admin/blog/route.ts:26 | the template string of a string value is that string, and every truthy value other than an array prints as non-empty text |
| Json.JoinElems | app/api/translate/route.ts:57-60 | an empty array prints as "" and a one-string array as that string |
| Posts.Validate | lib/blog-loader.ts:124-139 | a record is admitted exactly when its fields have the required types and title and content are non-empty, and the post returned is that record |
| Posts.ValidateToRecord | lib/blog-loader.ts:124-139 | a post read back from its record is accepted exactly when its title and content are non-empty |
| Posts.IsValid | lib/blog-loader.ts:124-139 | a valid record has a string title and a string content, both non-empty |
| Classifier.IsEnglish | app/api/translate/route.ts:4-16 | any Devanagari character makes the text non-English; English text is non-blank |
| Classifier.IsEnglishIffWhitelisted | components/Search.tsx:39-48 | the text is English exactly when its trimmed form is non-empty and drawn from the whitelist, with no Devanagari anywhere |
| Classifier.DevanagariNotAllowed | components/Search.tsx:40-41 | no Devanagari character is in the whitelist |
| Classifier.BlankIsNotEnglish | components/ExpandableCards.tsx:32-41 | blank or white-space-only text is never English |
| Classifier.IsEnglishOfTrimmed | app/api/translate/route.ts:15 | classifying the trimmed text gives the same answer as classifying the text |
| Classifier.EnglishExample | components/Search.tsx:40-47 | "jain philosophy" is English |
| Classifier.MixedScriptExample | components/Search.tsx:41-45 | a string with one Devanagari word is not English |
| Classifier.OtherSymbolExample | components/Search.tsx:40 | an underscore puts a string outside the whitelist |
| Fallback.FirstHit | app/api/translate/route.ts:76-81 | a Hindi word is found exactly when some fragment occurs in the lowered query, and it is one of the table's words |
| Fallback.FirstHitIsFirst | app/api/translate/route.ts:76-81 | the first fragment in table order that occurs decides the word |
| Fallback.Apply | app/api/translate/route.ts:65-82 | a query with no fragment comes back unchanged; otherwise the answer is one of the table's Hindi words |
| Fallback.ApplyFirstMatch | components/Search.tsx:87-101 | with fragment `i` the first that occurs, the fallback gives its Hindi word |
| Fallback.ApplyNoMatch | components/Search.tsx:120-127 | with no fragment in the query, the query is returned unchanged |
| Fallback.ApplyRange | components/Search.tsx:141-149 | the fallback is the query or one of the five Hindi words, and never empty for a non-empty query |
| Fallback.ApplyIgnoresCase | components/Search.tsx:95 | queries with the same lowercase form fall back to the same word |
| Fallback.Scan | components/Search.tsx:95-101 | the `for ... break` loop over the table computes the first hit, or keeps its initial value |
| Fallback.JainExample | app/api/translate/route.ts:67-81 | "jain philosophy" falls back to the Hindi word for jain |
| Fallback.NoFragmentExample | app/api/translate/route.ts:67-81 | a query with no fragment falls back to itself |
| Resolver.Resolve | components/Search.tsx:81-149 | the service's answer is used exactly when the reply succeeded with a non-empty text different from the query, and the dictionary fallback otherwise |
| Resolver.FailurePathsAgree | components/Search.tsx:83-149 | a missing, empty or echoed answer, a non-ok status and a thrown error all resolve to the same dictionary fallback |
| Resolver.OnServed | components/Search.tsx:81-104 | the ok branch as written computes the resolution of a served reply |
| Resolver.OnFailure | components/ExpandableCards.tsx:97-137 | the non-ok and catch branches as written compute the resolution of a failed reply |
| TranslateRoute.Admit | app/api/translate/route.ts:20-34 | a missing, non-string or empty `text` is rejected; blank or non-English trimmed text is answered at once; only English text is forwarded |
| TranslateRoute.Extract | app/api/translate/route.ts:57-60 | when every item's first element is falsy the text is empty, and a single string fragment is extracted as itself |
| TranslateRoute.ExtractConcat | app/api/translate/route.ts:57-60 | extraction of the fragments works fragment by fragment, in order |
| TranslateRoute.ExtractEmptyIffAllFalsy | app/api/translate/route.ts:57-60 | the extraction is empty exactly when no item contributes text; with no array as a first element, exactly when every first element is falsy |
| TranslateRoute.EmptyArrayAddsNothing | app/api/translate/route.ts:57-60 | a first element `[]` passes `filter(Boolean)` yet adds nothing to the joined text |
| TranslateRoute.Extracted | app/api/translate/route.ts:55-61 | without an array at `data[0]` the input is kept; an empty array extracts to "" |
| TranslateRoute.Choose | app/api/translate/route.ts:63-87 | an extraction that is empty or equal to the input is replaced by the dictionary fallback, and a non-empty input never yields an empty answer |
| TranslateRoute.ChooseByCode | app/api/translate/route.ts:55-87 | the route's statements as written compute the choice |
| TranslateRoute.Post | app/api/translate/route.ts:18-87 | the status is 400 exactly when `text` is missing, empty or not a string, and `original` is always the trimmed text |
| TranslateRoute.NoCallWithoutEnglish | app/api/translate/route.ts:31-34 | blank or non-English text is answered with itself whatever the upstream would say |
| TranslateRoute.FailedUpstreamIsIdentity | app/api/translate/route.ts:47-50 | a non-ok upstream response returns the trimmed input with no dictionary applied |
| TranslateRoute.TranslatedNonEmpty | app/api/translate/route.ts:84-87 | the answer for non-blank text is never empty |
| TranslateRoute.ClientOverRoute | components/Search.tsx:81-104 | the search box ends with the service's text when it is new and non-empty, and with the dictionary fallback otherwise |
| TranslateRoute.ServiceDownGivesDictionary | app/api/translate/route.ts:47-50 | with the service down, the box ends with the dictionary fallback |
| TranslateRoute.ServiceDownScenario | components/Search.tsx:86-102 | "jain philosophy" with the service down ends as the Hindi word for jain |
| Matcher.GlobalMatch | components/Search.tsx:168-196 | a blank translation gives no results; otherwise a post is kept exactly when title, excerpt, content or category contains the translated or the raw term, lowered and trimmed; the results are a sub-multiset of the posts |
| Matcher.GlobalMatchConcat | components/Search.tsx:177-193 | matching a concatenation matches each part in turn, so the results keep the posts' order |
| Matcher.GlobalMatchOne | components/Search.tsx:169-193 | one post gives itself when the translation is non-blank and it hits either term, and nothing otherwise |
| Matcher.CategoryMatch | components/ExpandableCards.tsx:155-177 | a blank translation keeps every post; otherwise a post is kept exactly when title, excerpt or content contains either term; the results are a sub-multiset of the posts |
| Matcher.CategoryMatchConcat | components/ExpandableCards.tsx:164-176 | matching a concatenation matches each part in turn, so the list keeps the posts' order |
| Matcher.CategoryMatchOne | components/ExpandableCards.tsx:156-176 | one post gives itself when the translation is blank or it hits either term, and nothing otherwise |
| Matcher.TermBlank | components/Search.tsx:174-175 | a term is empty exactly when the query trims to "" |
| Matcher.BlankRawTermMatchesAll | components/Search.tsx:175-193 | with a blank raw query and a non-blank translation every post matches in both views |
| Matcher.CategoryRefinesGlobal | components/ExpandableCards.tsx:164-176 | the category filter's results are the global results with no category-only hits |
| Matcher.CaseInsensitive | components/Search.tsx:174-175 | queries and translations with the same trimmed lowercase forms give the same results |
| QueryState.Effect | components/Search.tsx:51-165 | the effect keeps the typed query and the requests in flight |
| QueryState.SetQuery | components/Search.tsx:165 | the query becomes the typed text, and typing the same text again changes nothing because the effect reruns only on a change |
| QueryState.TimerFires | components/Search.tsx:71-79 | a firing timer starts its request and changes nothing the user sees |
| QueryState.Respond | components/Search.tsx:104-152 | a settled request sets the translation to its resolution and stops the spinner, whatever query it was for |
| QueryState.TimerIsCurrentPreserved | components/Search.tsx:53-71 | every step keeps a pending timer's payload equal to the current trimmed English query |
| QueryState.BlankQueryClears | components/Search.tsx:57-62 | a blank query clears the translation, stops the spinner and schedules nothing |
| QueryState.NonEnglishPassesThrough | components/Search.tsx:154-158 | a non-English query becomes its own translation at once |
| QueryState.EnglishSchedules | components/Search.tsx:67-71 | an English query starts the spinner and schedules a request for its trimmed form, keeping the old translation |
| QueryState.EnglishSent | components/Search.tsx:71-79 | once the timer fires, the trimmed English query is in flight |
| QueryState.OlderAnsweredLast | components/Search.tsx:104 | of two requests answered newest first, the older one's result remains |
| QueryState.LateReplyOverwrites | components/Search.tsx:51-165 | typing `a`, then `b`, with `a`'s reply arriving last leaves `a`'s translation while `b` is on screen |
| SearchBox.Open | components/Search.tsx:198-200 | the search button opens the box and keeps the query |
| SearchBox.Type | components/Search.tsx:227 | a keystroke sets the query and leaves the box open or closed |
| SearchBox.Clear | components/Search.tsx:236-239 | the clear button empties the query and the translation |
| SearchBox.Close | components/Search.tsx:202-205 | closing the box empties the query |
| SearchBox.Results | components/Search.tsx:168-196 | a blank translation gives no results, and every result is one of the posts |
| SearchBox.BlankTypingEmptiesResults | components/Search.tsx:57-61 | a blank keystroke empties the results at once |
| SearchBox.ClearEmptiesResults | components/Search.tsx:236-239 | after clearing there are no results and no translation notice |
| SearchBox.CloseEmptiesResults | components/Search.tsx:21-25 | closing a box with a query empties its results |
| SearchBox.NonEnglishSearchesAtOnce | components/Search.tsx:154-158 | a Hindi query searches with itself at once |
| CategoryView.Filtered | components/ExpandableCards.tsx:155-177 | a blank translation lists every post, and the list never holds a post from elsewhere |
| CategoryView.TotalPages | components/ExpandableCards.tsx:180 | the pages hold every filtered post, and there are none for no posts |
| CategoryView.TotalPagesIsCeiling | components/ExpandableCards.tsx:180 | the page count is the ceiling of n/6, and zero only for no posts |
| CategoryView.PageIsWindow | components/ExpandableCards.tsx:181-183 | page p is the slice from (p-1)*6 of at most six posts |
| CategoryView.PageItems | components/ExpandableCards.tsx:181-183 | a page holds at most six posts, all from the list |
| CategoryView.PageSizes | components/ExpandableCards.tsx:180-183 | pages before the last are full, the last holds one to six posts, and later pages are empty |
| CategoryView.PagesCoverAll | components/ExpandableCards.tsx:180-183 | the pages in order concatenate to the whole list |
| CategoryView.SearchChange | components/ExpandableCards.tsx:186-189 | a search edit sets the query and goes back to page 1 |
| CategoryView.Prev | components/ExpandableCards.tsx:328 | previous is one page back and never below 1, and the query is kept |
| CategoryView.Next | components/ExpandableCards.tsx:377 | next is one page on and never past the last, and the query is kept |
| CategoryView.PrevNextStayInRange | components/ExpandableCards.tsx:328-377 | from a page in range both buttons stay in range |
| CategoryView.GoTo | components/ExpandableCards.tsx:351 | a numbered button moves to its page and keeps the query |
| CategoryView.ControlFor | components/ExpandableCards.tsx:342-372 | an ellipsis sits exactly two pages from the current one, and a hidden page is neither the first, the last, nor within two of the current one |
| CategoryView.ShowsControls | components/ExpandableCards.tsx:249-325 | the page controls are drawn only with a non-empty page and more than six filtered posts |
| CategoryView.NumberedPages | components/ExpandableCards.tsx:342-361 | the first, the last and the pages within one of the current page have numbers, and no other page has one |
| CategoryView.GapsAreMarked | components/ExpandableCards.tsx:362-372 | an unnumbered page lies beyond an ellipsis two pages from the current one, on its side |
| CategoryView.TypingEnglish | components/ExpandableCards.tsx:59-63 | English typed in a fresh view waits on the timer with the old empty translation |
| CategoryView.NextTwiceOverAll | components/ExpandableCards.tsx:155-158 | with an empty translation all posts are listed, so next twice from page 1 reaches page 3 of thirteen or more posts |
| CategoryView.PagedToThree | components/ExpandableCards.tsx:377 | while a translation is pending the next button reaches page 3 |
| CategoryView.ReplyArrives | components/ExpandableCards.tsx:136-138 | the reply becomes the translation and the page is kept |
| CategoryView.Visible | components/ExpandableCards.tsx:183 | the drawn list holds at most six posts, all from the list |
| CategoryView.StaleViewState | components/ExpandableCards.tsx:155-183 | after those events the view is on page 3 and only one post matches |
| CategoryView.EmptyPageWhileAPostMatches | components/ExpandableCards.tsx:249-325 | as written, a matching post can leave an empty page with one page in total and no page controls |
| CategoryView.StalePageHidesControls | components/ExpandableCards.tsx:249-325 | a page past the last draws no posts and no page controls, whatever the number of pages |
| CategoryView.StuckPostsAreOneTile | components/BentoGrid.tsx:32-40 | the thirteen example posts are exactly what the grid hands the category view when its first tile is clicked |
| CategoryView.SelectedCategoryShown | components/BentoGrid.tsx:32-40 | a clicked non-empty category is shown with that category's posts |
| CategoryView.EmptyPageExample | components/ExpandableCards.tsx:249-325 | on thirteen concrete posts, typing "x", pressing next twice and receiving "y" leaves an empty page 3 without controls while the first post matches |
| CategoryView.ShownPage | components/ExpandableCards.tsx:180-183 | the drawn page is brought into [1, total] and equals the current page when that is in range |
| CategoryView.VisibleClamped | components/ExpandableCards.tsx:181-183 | the list drawn with the page brought into range holds only posts of the list |
| CategoryView.ClampedPageNeverEmpty | components/ExpandableCards.tsx:249 | with the page in range, a non-empty filtered list always draws at least one and at most six posts |
| BlogLoader.Admitted | lib/blog-loader.ts:47-60 | a directory entry is loaded exactly when its name ends in `.json`, it parses and it validates |
| BlogLoader.Collect | lib/blog-loader.ts:44-64 | each loaded post comes from an admitted entry, and no more posts than entries |
| BlogLoader.CollectConcat | lib/blog-loader.ts:47-64 | a skipped or failed entry does not stop the loop: loading works entry by entry |
| BlogLoader.CollectOne | lib/blog-loader.ts:48-60 | one entry loads as its post or as nothing |
| BlogLoader.Insert | lib/blog-loader.ts:67 | inserting keeps the list newest first and adds exactly that post |
| BlogLoader.SortNewestFirst | lib/blog-loader.ts:67 | the sorted list is newest first and a permutation of the loaded posts |
| BlogLoader.NewestFirstTail | lib/blog-loader.ts:67 | the rest of a newest-first list is newest first |
| BlogLoader.ConsNewestFirst | lib/blog-loader.ts:67 | a post no older than the head of a newest-first list can go in front |
| BlogLoader.WithKeyCons | lib/blog-loader.ts:67 | the posts of one timestamp are taken element by element |
| BlogLoader.InsertWithKey | lib/blog-loader.ts:67 | insertion keeps the relative order of posts with equal timestamps |
| BlogLoader.SortIsStable | lib/blog-loader.ts:67 | posts with equal timestamps keep their directory order |
| BlogLoader.GetAllBlogs | lib/blog-loader.ts:29-78 | a missing directory gives no posts; otherwise the valid posts, newest first |
| BlogLoader.ServesBlogCache | lib/blog-loader.ts:33 | with the cache duration at 0 the test never passes |
| BlogLoader.ServesFeaturedCache | lib/blog-loader.ts:165 | the test passes only when the clock reads earlier than the cache stamp |
| BlogLoader.BlogCacheNeverServed | lib/blog-loader.ts:24-35 | with a cache duration of 0 the cached list is never returned |
| BlogLoader.FeaturedCacheNeedsClockBackwards | lib/blog-loader.ts:165 | the featured cache is served only when the clock reads earlier than the cache stamp |
| BlogLoader.GetBlogCount | lib/blog-loader.ts:153-156 | the count is the number of loaded posts |
| BlogLoader.FindById | lib/blog-loader.ts:83-86 | the result is the first post with that id, and null exactly when no post has it |
| BlogLoader.GetBlogsByCategory | lib/blog-loader.ts:91-94 | a post is listed exactly when its category equals the given one, and the list is a sub-multiset of the posts |
| BlogLoader.GetBlogsByCategoryConcat | lib/blog-loader.ts:93 | filtering a concatenation filters each part in turn, so the list keeps the posts' order |
| BlogLoader.GetBlogsByCategoryOne | lib/blog-loader.ts:93 | one post gives itself when its category matches, and nothing otherwise |
| BlogLoader.SearchBlogs | lib/blog-loader.ts:99-110 | a post is listed exactly when its title, excerpt, content or category contains the lowered untrimmed query, and the list is a sub-multiset of the posts |
| BlogLoader.SearchBlogsConcat | lib/blog-loader.ts:103-109 | searching a concatenation searches each part in turn, so the hits keep the posts' order |
| BlogLoader.SearchBlogsOne | lib/blog-loader.ts:103-109 | one post gives itself when a field contains the query, and nothing otherwise |
| BlogLoader.BelowIrreflexive | lib/blog-loader.ts:118 | the order used to sort categories is irreflexive |
| BlogLoader.BelowTransitive | lib/blog-loader.ts:118 | the category order is transitive |
| BlogLoader.BelowTotal | lib/blog-loader.ts:118 | any two distinct categories are comparable |
| BlogLoader.AddCategory | lib/blog-loader.ts:117-118 | adding a category to a sorted set keeps it sorted with exactly the old members plus the new one |
| BlogLoader.Categories | lib/blog-loader.ts:115-119 | the category list is strictly ascending |
| BlogLoader.CategoriesExact | lib/blog-loader.ts:117 | every post's category is listed and every listed category belongs to a post |
| BlogLoader.AscendingDistinct | lib/blog-loader.ts:117 | a strictly ascending list has no repeats, so each category is listed once |
| BlogLoader.Featured | lib/blog-loader.ts:187-196 | each featured entry is a loaded post whose id is in the id list, at most one per id |
| BlogLoader.FeaturedConcat | lib/blog-loader.ts:189-196 | the featured list follows the id list's order, id by id |
| BlogLoader.FeaturedOne | lib/blog-loader.ts:190-195 | one id yields its first post or, when no post has it, nothing |
| BlogLoader.GetFeaturedBlogs | lib/blog-loader.ts:162-206 | no featured file, or one that fails, gives no posts; otherwise the posts of its id list |
| BlogsApi.DigitValue | app/api/blogs/route.ts:14 | a character is a decimal digit exactly when its value is below ten |
| BlogsApi.DigitEnd | app/api/blogs/route.ts:14 | `parseInt` reads the longest run of digits |
| BlogsApi.ParseInt | app/api/blogs/route.ts:14 | `parseInt` yields a number only when the text holds a decimal digit (a `0x` prefix itself starts with one) |
| BlogsApi.ParseIntDecimal | app/api/blogs/route.ts:14 | a limit written in decimal reads back as that number |
| BlogsApi.Limited | app/api/blogs/route.ts:14 | the limited list is a prefix of the selected list, and the whole list without `limit` |
| BlogsApi.Get | app/api/blogs/route.ts:4-26 | every post returned is a loaded post; with `featured=true` the answer is a prefix of the featured list, with a non-empty `q` a prefix of the search results, and otherwise a prefix of all posts; each is the whole list without `limit` |
| BlogsApi.LimitKeepsFirst | app/api/blogs/route.ts:20 | a non-negative limit n keeps the first n posts |
| BlogsApi.NegativeLimitDropsLast | app/api/blogs/route.ts:24 | a negative limit -n drops the last n posts |
| BlogsApi.NonNumericLimitEmpty | app/api/blogs/route.ts:14 | a limit containing no decimal digit (such as "all", "none" or "max") parses to NaN and gives an empty list |
| BlogsApi.AllLimitEmpty | app/api/blogs/route.ts:14 | `?limit=all` gives an empty list for any posts |
| BlogsApi.FeaturedIgnoresQuery | app/api/blogs/route.ts:12-16 | with `featured=true` the query makes no difference |
| BlogsApi.EmptyQueryListsAll | app/api/blogs/route.ts:18-26 | an empty `q` is the same as no `q` |
| AdminApi.HasRequired | app/api/admin/blog/route.ts:13 | a record passes only with a defined, non-null id and a non-empty title |
| AdminApi.Key | app/api/admin/blog/route.ts:26 | a string id names the file as itself, and any other truthy non-array id as non-empty text |
| AdminApi.Create | app/api/admin/blog/route.ts:8-37 | status 400 exactly when a required field is falsy, 409 exactly when the id exists, and 201 otherwise; only a 201 writes, and it adds exactly that id |
| AdminApi.Update | app/api/admin/blog/route.ts:47-76 | status 400 exactly when a required field is falsy, 404 exactly when the id is absent, and 200 otherwise; only a 200 writes, and it changes only that id |
| AdminApi.CreateThenUpdate | app/api/admin/blog/route.ts:65-76 | an update after a create of the same id succeeds and leaves the update stored |
| AdminApi.CreateTwiceConflicts | app/api/admin/blog/route.ts:26-32 | a second create of an id is refused with 409 and changes nothing |
| AdminApi.StoredPostLoadedIffValid | app/api/admin/blog/route.ts:13 | a stored post is loaded back exactly when it passes the loader's validation |
| AdminApi.AcceptedButNeverLoaded | app/api/admin/blog/route.ts:13-37 | a post without `readTime` is stored with 201 and never loaded |
| Markdown.CloseBoldMatches | lib/markdown-parser.tsx:12 | the scan for a closing `**` finds the bold regex's lazy match, and finding none means no match starts there |
| Markdown.CloseItalicMatches | lib/markdown-parser.tsx:26 | the scan for a closing `*` finds the italic regex's match, with its lookbehind and lookahead, and finding none means there is no match |
| Markdown.AtMatches | lib/markdown-parser.tsx:12-26 | a match found at a position is a regex match, and none found means none exists there |
| Markdown.MatchEndUnique | lib/markdown-parser.tsx:12 | a match at a position has only one end |
| Markdown.Bolds | lib/markdown-parser.tsx:16-23 | the bold matches are genuine matches of the bold pattern, left to right without overlap |
| Markdown.KeptItalics | lib/markdown-parser.tsx:26-40 | each kept italic match is a genuine italic match not starting inside a bold match, drawn from the italic scan |
| Markdown.Matches | lib/markdown-parser.tsx:16-43 | the collected matches are exactly the bold and the kept italic ones, as a multiset |
| Markdown.Scan | lib/markdown-parser.tsx:16-23 | the `exec` loop yields matches of the kind, from the start position on, each the one found at its start |
| Markdown.ScanOrdered | lib/markdown-parser.tsx:16-23 | the global regex yields matches left to right without overlap |
| Markdown.ScanComplete | lib/markdown-parser.tsx:16-23 | every position where a match starts is covered by a match the loop yields |
| Markdown.ScanNoStars | lib/markdown-parser.tsx:16-27 | text without `*` yields no match |
| Markdown.EarlierItalicsNeverCover | lib/markdown-parser.tsx:27 | no italic match starts inside an earlier one |
| Markdown.ItalicClearOfBold | lib/markdown-parser.tsx:29-39 | an italic match kept by the filter does not overlap any bold match |
| Markdown.InsertByStart | lib/markdown-parser.tsx:43 | inserting a match adds exactly it |
| Markdown.SortByStart | lib/markdown-parser.tsx:43 | sorting by start is a permutation |
| Markdown.InsertChained | lib/markdown-parser.tsx:43 | inserting a match disjoint from sorted, disjoint matches keeps them in order |
| Markdown.SortChains | lib/markdown-parser.tsx:43 | sorting pairwise disjoint matches orders them by position without overlap |
| Markdown.MatchesMembership | lib/markdown-parser.tsx:16-43 | a match is collected exactly when it is a bold match, or an italic match that does not start inside a bold one |
| Markdown.MatchesAreMatches | lib/markdown-parser.tsx:16-40 | every collected match is a regex match, and no italic one starts inside a bold one |
| Markdown.MatchesChained | lib/markdown-parser.tsx:43 | the sorted matches are in order, do not overlap and lie within the text |
| Markdown.NoStarsNoMatches | lib/markdown-parser.tsx:12-26 | text without `*` has no matches |
| Markdown.Gap | lib/markdown-parser.tsx:48-50 | the text before a match is pushed only when non-empty, verbatim |
| Markdown.Assemble | lib/markdown-parser.tsx:46-65 | no empty plain piece is produced |
| Markdown.Parse | lib/markdown-parser.tsx:7-68 | the result is never empty, is `[text]` when nothing matches, and has no empty plain piece for non-empty text |
| Markdown.ParsePlainText | lib/markdown-parser.tsx:67 | text without `*` parses to itself alone |
| Markdown.RenderConcat | lib/markdown-parser.tsx:46-65 | rendering is piecewise |
| Markdown.MatchFaithful | lib/markdown-parser.tsx:12-26 | a match's span is its delimiter, its content and its delimiter |
| Markdown.MatchesFaithful | lib/markdown-parser.tsx:16-40 | the same holds for every collected match |
| Markdown.PieceRenders | lib/markdown-parser.tsx:53-57 | a formatted piece renders to its match's span |
| Markdown.RenderStep | lib/markdown-parser.tsx:46-60 | gap, piece and the rest render to the text from the gap on |
| Markdown.AssembleRenders | lib/markdown-parser.tsx:46-65 | the assembled parts render to the text from the start index on |
| Markdown.ParseRoundTrip | lib/markdown-parser.tsx:7-68 | the parts, with delimiters restored around formatted ones, render back to the input |
| Markdown.Pieces | lib/markdown-parser.tsx:53-57 | one formatted part per match, in order |
| Markdown.AssembleFormatted | lib/markdown-parser.tsx:46-65 | the formatted parts of the assembly are the pieces of the matches, in order |
| Markdown.ParseFormatted | lib/markdown-parser.tsx:43-65 | the formatted parts are exactly the collected matches, sorted by start |
| RelatedPosts.Eligible | components/RelatedPosts.tsx:14-15 | a post is eligible exactly when it shares the category and has another id, and the eligible list is a sub-multiset of all posts |
| RelatedPosts.EligibleConcat | components/RelatedPosts.tsx:14-15 | the filter works part by part, so the eligible posts keep the list's order |
| RelatedPosts.EligibleOne | components/RelatedPosts.tsx:14-15 | one post gives itself when it is related, and nothing otherwise |
| RelatedPosts.ShownFacts | components/RelatedPosts.tsx:16-17 | the first three of any shuffle are min(3, eligible) eligible posts |
| RelatedPosts.NoneEligible | components/RelatedPosts.tsx:19 | nothing is eligible exactly when no post is related |
| RelatedPosts.Related | components/RelatedPosts.tsx:14-19 | nothing is rendered exactly when no post is related; otherwise min(3, eligible) posts, a sub-multiset of the eligible ones, each related |
| RelatedPosts.ShuffleOnlyReorders | components/RelatedPosts.tsx:16 | any two shuffles show the same number of posts |
| RelatedPosts.NeverItself | components/RelatedPosts.tsx:15 | the current post is never among its related posts |
| BentoGrid.CategoryPosts | components/BentoGrid.tsx:28-30 | a post is shown exactly when it has that category, as a sub-multiset of the posts |
| BentoGrid.CategoryPostsConcat | components/BentoGrid.tsx:29 | the filter works part by part, so the posts keep their order |
| BentoGrid.CategoryPostsOne | components/BentoGrid.tsx:29 | one post gives itself when its category matches, and nothing otherwise |
| BentoGrid.TilesFor | components/BentoGrid.tsx:55-57 | each tile names a listed category with at least one post and shows that category's post count |
| BentoGrid.TilesForComplete | components/BentoGrid.tsx:55-57 | every listed category with a post gets a tile |
| BentoGrid.TilesExact | components/BentoGrid.tsx:13-23 | a category has a tile exactly when it is one of the nine fixed ones and has a post |
| BentoGrid.Show | components/BentoGrid.tsx:32-40 | a non-empty selection shows that category's posts, all of that category; otherwise the tiles |
| BentoGrid.Select | components/BentoGrid.tsx:66 | clicking a tile selects its category |
| BentoGrid.Back | components/BentoGrid.tsx:37 | back resets the selection to null |
| BentoGrid.SelectOpensCategory | components/BentoGrid.tsx:32-40 | a clicked tile opens exactly its category's posts, as many as the tile counted |
| BentoGrid.BackShowsTiles | components/BentoGrid.tsx:37-42 | after back the tiles are shown again |

## Left out

- File system, JSON parsing and path joining: directories, files and the featured file are inputs (`DirEntry`, `FeaturedFile`, a `map` of stored records). A file id containing `/` or `..` is not modelled.
- The 500 responses of the blog list, admin and translate routes come from thrown I/O errors and are not modelled. The translate route's catch path, which re-reads a consumed request body, is left out with them.
- Non-object JSON request bodies are left out: the admin routes take an already-parsed record.
- Upstream and file inputs follow the code's declared types rather than everything JSON allows: each item of the translation service's `data[0]` is an array, `featuredIds` is an array of strings, and a non-string `translated` in the translate route's reply is read as missing. So a string item contributing its first character, a string `featuredIds` iterated character by character, and a truthy non-string `translated` used as it is are not modelled.
- The network: the upstream translation service and the client's `fetch` of the translate route are replies given as parameters (`Upstream`, `Resolver.Reply`).
- Timers and React scheduling: the debounce timer is the explicit `timer` field, which fires when told. Its 300 ms delay and effect batching are not modelled.
- `Math.random` in the related-posts shuffle: the shuffled list is a parameter, any permutation of the eligible posts.
- Dates: `new Date(...).getTime()` is a caller-supplied function from the date text to an integer. Invalid dates (`NaN`) are not modelled.
- Unicode case mapping: lowercasing is ASCII-only, and Devanagari has no case.
- JSON numbers are integers: fractional numbers, `NaN` and `Infinity` are not modelled. `readTime` and the upstream service's items are the only numbers the code meets, and it reads them only for their type and truthiness.
- Object members are not looked into: an object prints as `[object Object]`. Arrays are modelled with their `join` printing.
- `sourceUrl`, the optional field of a post, is not carried: no modelled operation reads it.
- BlogLoader.BelowTotal: category sorting uses code-point order on `char`, and UTF-16 surrogate pairs are not distinguished from that order.
- BlogLoader.GetFeaturedBlogs: the early return of the cached featured list (lib/blog-loader.ts:165-167), which happens when the clock reads earlier than the cache stamp, is not modelled. The function always recomputes the list from the featured file. `BlogLoader.ServesFeaturedCache` states when the cached list would be served instead, possibly after the featured file has gone.
- BlogsApi.ParseInt: a magnitude past 2^53 loses precision in JavaScript, but the model keeps it exact; `slice` clamps either way.
- BlogsApi.Limited: `limit` is read with the full `parseInt` rule (white space, sign, `0x`), not as an optional natural number, so the model is closer to the code than a plain number would be.
- QueryState.Respond: the code has no generation counter, so a late reply for an earlier query overwrites the current translation. The model follows the code, and `QueryState.LateReplyOverwrites` exhibits it; no stale-reply guarantee is claimed.
- `lib/blog-data.ts` does not export `blogPosts`, which `components/Search.tsx` imports, so the header search takes its post list as a parameter.
- Rendering, animation and DOM-bound components are not part of this model.

## Findings

| source | as written | input that shows it | evidently intended | confidence | as-written member | corrected member |
|---|---|---|---|---|---|---|
| components/ExpandableCards.tsx:155-183 | the current page is kept when the translated query narrows the list, and only a search edit resets it | thirteen posts of the grid's first category, the first with "y" and twelve with "z" in every text field; type "x", press next twice while its translation is pending (page 3), then receive the translation "y", which matches only the first post | the page is brought back into range, so a non-empty list always shows a post | not executed | CategoryView.EmptyPageExample | CategoryView.ClampedPageNeverEmpty |

=== FILE: admin_api.dfy ===
/** The admin routes `POST` and `PUT /api/admin/blog`: create a post file
    when its id is new, replace it when the id exists. The blog directory
    is a map from a file's id (its name without `.json`) to the record
    written to it. */
module AdminApi {
  import opened Wrappers
  import opened Json
  import opened Text
  import opened Posts
  import opened BlogLoader

  type Store = map<string, Record>

  /** A route's answer: its HTTP status, the post echoed back on success
      and the message otherwise. */
  datatype Response = Response(status: nat, post: Option<Record>, message: string)

  /** The routes' only check: `id`, `title` and `content` are truthy. */
  predicate HasRequired(blog: Record)
    ensures HasRequired(blog) ==> blog.id != JUndefined && blog.id != JNull && blog.title != JStr("")
  {
    Truthy(blog.id) && Truthy(blog.title) && Truthy(blog.content)
  }

  /** The file a post is written to is named by `${blog.id}`. */
  function Key(blog: Record): (r: string)
    ensures blog.id.JStr? ==> r == blog.id.s
    ensures Truthy(blog.id) && !blog.id.JArray? ==> r != ""
  {
    ToText(blog.id)
  }

  const MissingFields: string := "Missing required fields: id, title, content"

  function Quoted(id: string): string {
    "\"" + id + "\""
  }

  /** `POST`: 400 without the required fields, 409 when a file with the id
      exists, otherwise the post is written and echoed with 201. */
  function Create(store: Store, blog: Record): (r: (Response, Store))
    ensures r.0.status in {201, 400, 409}
    ensures r.0.status == 400 <==> !HasRequired(blog)
    ensures r.0.status == 409 <==> HasRequired(blog) && Key(blog) in store
    ensures r.0.status != 201 ==> r.1 == store && r.0.post.None?
    ensures r.0.status == 201 ==>
      r.0.post == Some(blog) && Key(blog) !in store
      && r.1.Keys == store.Keys + {Key(blog)} && r.1[Key(blog)] == blog
    ensures forall k :: k in store ==> k in r.1 && r.1[k] == store[k]
  {
    if !HasRequired(blog) then
      (Response(400, None, MissingFields), store)
    else if Key(blog) in store then
      (Response(409, None, "Blog with id " + Quoted(Key(blog)) + " already exists"), store)
    else
      (Response(201, Some(blog), ""), store[Key(blog) := blog])
  }

  /** `PUT`: 400 without the required fields, 404 when no file has the id,
      otherwise that file is overwritten and the post echoed with 200. */
  function Update(store: Store, blog: Record): (r: (Response, Store))
    ensures r.0.status in {200, 400, 404}
    ensures r.0.status == 400 <==> !HasRequired(blog)
    ensures r.0.status == 404 <==> HasRequired(blog) && Key(blog) !in store
    ensures r.0.status != 200 ==> r.1 == store && r.0.post.None?
    ensures r.0.status == 200 ==>
      r.0.post == Some(blog) && r.1.Keys == store.Keys && r.1[Key(blog)] == blog
    ensures forall k :: k in store && k != Key(blog) ==> k in r.1 && r.1[k] == store[k]
  {
    if !HasRequired(blog) then
      (Response(400, None, MissingFields), store)
    else if Key(blog) !in store then
      (Response(404, None, "Blog with id " + Quoted(Key(blog)) + " not found"), store)
    else
      (Response(200, Some(blog), ""), store[Key(blog) := blog])
  }

  /** Creating a post and then updating it with the same id leaves the
      update in the store: the id then names the updated post. */
  lemma CreateThenUpdate(store: Store, blog: Record, edited: Record)
    requires HasRequired(blog) && Key(blog) !in store
    requires HasRequired(edited) && Key(edited) == Key(blog)
    ensures var (r1, s1) := Create(store, blog);
      var (r2, s2) := Update(s1, edited);
      r1.status == 201 && r2.status == 200 && s2 == store[Key(blog) := edited]
  {
  }

  /** A second `POST` of the same id is refused and changes nothing. */
  lemma CreateTwiceConflicts(store: Store, blog: Record, other: Record)
    requires HasRequired(blog) && Key(blog) !in store
    requires HasRequired(other) && Key(other) == Key(blog)
    ensures var s1 := Create(store, blog).1;
      Create(s1, other) == (Response(409, None, "Blog with id " + Quoted(Key(blog)) + " already exists"), s1)
  {
  }

  /** The directory entry the loader reads for a stored post. */
  function Entry(key: string, blog: Record): DirEntry {
    DirEntry(key + ".json", Some(blog))
  }

  /** The routes check less than the loader: a post they store is loaded
      back exactly when it passes `validateBlogPost`. */
  lemma StoredPostLoadedIffValid(store: Store, blog: Record)
    requires Create(store, blog).0.status == 201
    ensures Admitted(Entry(Key(blog), blog)).Some? <==> IsValid(blog)
  {
    var name := Key(blog) + ".json";
    assert name[|name| - 5..] == ".json";
  }

  /** A post without `readTime` is accepted with 201 and then skipped by
      every load of the directory. */
  lemma AcceptedButNeverLoaded(store: Store)
    requires "p1" !in store
    ensures var blog := Record(JStr("p1"), JStr("T"), JUndefined, JStr("C"), JUndefined,
                               JUndefined, JUndefined, JUndefined, JUndefined);
      Create(store, blog).0.status == 201 && Admitted(Entry(Key(blog), blog)).None?
  {
    var blog := Record(JStr("p1"), JStr("T"), JUndefined, JStr("C"), JUndefined,
                       JUndefined, JUndefined, JUndefined, JUndefined);
    StoredPostLoadedIffValid(store, blog);
  }
}

=== FILE: bento_grid.dfy ===
/** The home page's category grid: one tile per fixed category that has
    posts, and the category view once a tile is chosen. */
module BentoGrid {
  import opened Wrappers
  import opened Posts
  import opened BlogLoader

  /** The nine fixed categories, in display order: dharma, life stories,
      worship, devotional songs, festivals, diet, philosophy, temples and
      ascetic life. */
  const Categories: seq<string> := [
    "\U{0927}\U{0930}\U{094D}\U{092E}",
    "\U{091C}\U{0940}\U{0935}\U{0928} \U{0915}\U{0925}\U{093E}",
    "\U{092A}\U{0942}\U{091C}\U{093E}",
    "\U{092D}\U{091C}\U{0928}",
    "\U{0924}\U{094D}\U{092F}\U{094B}\U{0939}\U{093E}\U{0930}",
    "\U{0906}\U{0939}\U{093E}\U{0930}",
    "\U{0926}\U{0930}\U{094D}\U{0936}\U{0928}",
    "\U{092E}\U{0902}\U{0926}\U{093F}\U{0930}",
    "\U{0938}\U{093E}\U{0927}\U{0941} \U{091C}\U{0940}\U{0935}\U{0928}"
  ]

  /** `getCategoryPosts(category)`: the same exact-equality, order-keeping
      filter as the loader's `getBlogsByCategory`. */
  function CategoryPosts(posts: seq<Post>, category: string): (r: seq<Post>)
    ensures forall i :: 0 <= i < |r| ==> r[i].category == category
    ensures forall i :: 0 <= i < |posts| ==> (posts[i] in r <==> posts[i].category == category)
    ensures multiset(r) <= multiset(posts)
  {
    GetBlogsByCategory(posts, category)
  }

  /** Together with `CategoryPostsOne`: the category's posts in their
      original order, each as often as it occurs. */
  lemma {:induction false} CategoryPostsConcat(a: seq<Post>, b: seq<Post>, category: string)
    ensures CategoryPosts(a + b, category) == CategoryPosts(a, category) + CategoryPosts(b, category)
  {
    BlogLoader.GetBlogsByCategoryConcat(a, b, category);
  }

  lemma {:induction false} CategoryPostsOne(p: Post, category: string)
    ensures CategoryPosts([p], category) == if p.category == category then [p] else []
  {
    BlogLoader.GetBlogsByCategoryOne(p, category);
  }

  /** The count a tile shows: `categoryPosts.length`. */
  function Count(posts: seq<Post>, category: string): nat {
    |CategoryPosts(posts, category)|
  }

  /** A tile: the category's name and the number of posts it shows. */
  datatype Tile = Tile(name: string, count: nat)

  /** The `categories.map(...)`, with `null` for a category without posts:
      the tiles for `cats`, in order. */
  function TilesFor(cats: seq<string>, posts: seq<Post>): (r: seq<Tile>)
    ensures forall i :: 0 <= i < |r| ==>
      r[i].name in cats && r[i].count == Count(posts, r[i].name) && r[i].count > 0
  {
    if cats == [] then []
    else
      var rest := TilesFor(cats[1..], posts);
      var n := Count(posts, cats[0]);
      var r := if n == 0 then rest else [Tile(cats[0], n)] + rest;
      assert forall i :: 0 <= i < |rest| ==> rest[i].name in cats;
      r
  }

  predicate HasTile(tiles: seq<Tile>, c: string) {
    exists i :: 0 <= i < |tiles| && tiles[i].name == c
  }

  /** One step of the map: the first category's tile, if it has posts,
      before the tiles of the rest. */
  lemma TilesForStep(cats: seq<string>, posts: seq<Post>)
    requires cats != []
    ensures TilesFor(cats, posts) ==
      if Count(posts, cats[0]) == 0 then TilesFor(cats[1..], posts)
      else [Tile(cats[0], Count(posts, cats[0]))] + TilesFor(cats[1..], posts)
  {
  }

  /** A tile put in front keeps every tile behind it. */
  lemma HasTileCons(t: Tile, tiles: seq<Tile>, c: string)
    requires HasTile(tiles, c)
    ensures HasTile([t] + tiles, c)
  {
    var i :| 0 <= i < |tiles| && tiles[i].name == c;
    assert ([t] + tiles)[i + 1] == tiles[i];
  }

  /** Every category of `cats` with posts gets a tile. */
  lemma {:induction false} TilesForComplete(cats: seq<string>, posts: seq<Post>, c: string)
    requires c in cats && Count(posts, c) > 0
    ensures HasTile(TilesFor(cats, posts), c)
  {
    TilesForStep(cats, posts);
    var rest := TilesFor(cats[1..], posts);
    if c == cats[0] {
      assert TilesFor(cats, posts)[0].name == c;
    } else {
      assert c in cats[1..];
      TilesForComplete(cats[1..], posts, c);
      if Count(posts, cats[0]) > 0 {
        HasTileCons(Tile(cats[0], Count(posts, cats[0])), rest, c);
      }
    }
  }

  function Tiles(posts: seq<Post>): seq<Tile> {
    TilesFor(Categories, posts)
  }

  /** A category has a tile exactly when it is one of the fixed categories
      and has a post; the tile shows its post count. */
  lemma TilesExact(posts: seq<Post>, c: string)
    ensures HasTile(Tiles(posts), c) <==> c in Categories && Count(posts, c) > 0
  {
    if c in Categories && Count(posts, c) > 0 {
      TilesForComplete(Categories, posts, c);
    }
  }

  /** The component's state: the chosen category, `null` at first. */
  datatype Grid = Grid(selected: Option<string>)

  /** What the component renders. */
  datatype Screen = TileScreen(tiles: seq<Tile>) | CategoryScreen(category: string, posts: seq<Post>)

  /** `if (selectedCategory)`: a chosen, non-empty category shows its
      posts; otherwise the tiles. */
  function Show(g: Grid, posts: seq<Post>): (r: Screen)
    ensures r.CategoryScreen? <==> g.selected.Some? && g.selected.value != ""
    ensures r.CategoryScreen? ==> r.category == g.selected.value
    ensures r.CategoryScreen? ==> forall i :: 0 <= i < |r.posts| ==> r.posts[i].category == r.category
    ensures r.TileScreen? ==> r.tiles == Tiles(posts)
  {
    if g.selected.Some? && g.selected.value != "" then
      CategoryScreen(g.selected.value, CategoryPosts(posts, g.selected.value))
    else TileScreen(Tiles(posts))
  }

  /** Clicking a tile. */
  function Select(g: Grid, name: string): (r: Grid)
    ensures r.selected == Some(name)
  {
    Grid(Some(name))
  }

  /** The category view's back button. */
  function Back(g: Grid): (r: Grid)
    ensures r.selected.None?
  {
    Grid(None)
  }

  /** Clicking a tile opens that category with exactly the posts the tile
      counted, in list order. */
  lemma SelectOpensCategory(g: Grid, posts: seq<Post>, i: nat)
    requires i < |Tiles(posts)|
    ensures var t := Tiles(posts)[i];
      Show(Select(g, t.name), posts) == CategoryScreen(t.name, CategoryPosts(posts, t.name))
      && Count(posts, t.name) == t.count
  {
    var t := Tiles(posts)[i];
    assert t.name in Categories;
    assert t.name != "";
  }

  /** Going back from any category shows the tiles again. */
  lemma BackShowsTiles(g: Grid, posts: seq<Post>)
    ensures Show(Back(g), posts) == TileScreen(Tiles(posts))
  {
  }
}

=== FILE: blog_loader.dfy ===
/** The content store: loading every post from the blog directory, and the
    queries built on top of the loaded list. The file system is replaced by
    the directory listing with each file already read and parsed, and date
    parsing by a caller-supplied timestamp function. */
module BlogLoader {
  import opened Wrappers
  import opened Text
  import opened Seqs
  import opened Posts

  /** One file of the blog directory: its name, and the record its JSON
      parses to (`None` when it cannot be read, is not JSON, or is not an
      object). */
  datatype DirEntry = DirEntry(name: string, parsed: Option<Record>)

  /** The posts an entry contributes: a `.json` file that parses and
      validates gives its post; anything else is skipped. */
  function Admitted(e: DirEntry): (r: Option<Post>)
    ensures r.Some? <==> EndsWith(e.name, ".json") && e.parsed.Some? && IsValid(e.parsed.value)
  {
    if !EndsWith(e.name, ".json") || e.parsed.None? then None
    else Validate(e.parsed.value)
  }

  /** The loop over the directory, before sorting. */
  function Collect(entries: seq<DirEntry>): (r: seq<Post>)
    ensures |r| <= |entries|
    ensures forall i :: 0 <= i < |r| ==> exists j :: 0 <= j < |entries| && Admitted(entries[j]) == Some(r[i])
  {
    if |entries| == 0 then []
    else
      var rest := Collect(entries[1..]);
      assert forall j :: 1 <= j < |entries| ==> entries[j] == entries[1..][j - 1];
      match Admitted(entries[0])
      case Some(p) => [p] + rest
      case None => rest
  }

  /** A bad file never aborts the loop: collecting a listing is collecting
      its parts one after the other, and a skipped entry adds nothing. */
  lemma {:induction false} CollectConcat(a: seq<DirEntry>, b: seq<DirEntry>)
    ensures Collect(a + b) == Collect(a) + Collect(b)
  {
    if |a| == 0 {
      assert a + b == b;
    } else {
      assert (a + b)[1..] == a[1..] + b;
      CollectConcat(a[1..], b);
    }
  }

  lemma CollectOne(e: DirEntry)
    ensures Collect([e]) == match Admitted(e) case Some(p) => [p] case None => []
  {
  }

  /** The sort key: the post's date as a timestamp. */
  function Key(stamp: string -> int, p: Post): int {
    stamp(p.date)
  }

  /** Newest first: no post is older than one after it. */
  predicate NewestFirst(stamp: string -> int, s: seq<Post>) {
    forall i, j :: 0 <= i < j < |s| ==> Key(stamp, s[i]) >= Key(stamp, s[j])
  }

  /** The posts of `s` dated `k`, in their order in `s`. */
  function WithKey(stamp: string -> int, s: seq<Post>, k: int): seq<Post> {
    if |s| == 0 then []
    else (if Key(stamp, s[0]) == k then [s[0]] else []) + WithKey(stamp, s[1..], k)
  }

  /** Places `p` before the first post that is not newer than it. */
  function Insert(stamp: string -> int, p: Post, s: seq<Post>): (r: seq<Post>)
    requires NewestFirst(stamp, s)
    ensures NewestFirst(stamp, r)
    ensures multiset(r) == multiset(s) + multiset{p}
    ensures |r| > 0 && (r[0] == p || (|s| > 0 && r[0] == s[0]))
  {
    if |s| == 0 || Key(stamp, p) >= Key(stamp, s[0]) then
      ConsNewestFirst(stamp, p, s);
      [p] + s
    else
      NewestFirstTail(stamp, s);
      var rest := Insert(stamp, p, s[1..]);
      assert |s| > 1 ==> Key(stamp, s[0]) >= Key(stamp, s[1]);
      ConsNewestFirst(stamp, s[0], rest);
      assert s == [s[0]] + s[1..];
      [s[0]] + rest
  }

  /** A post no older than the first of a newest-first list can go in
      front of it. */
  lemma ConsNewestFirst(stamp: string -> int, x: Post, s: seq<Post>)
    requires NewestFirst(stamp, s)
    requires |s| > 0 ==> Key(stamp, x) >= Key(stamp, s[0])
    ensures NewestFirst(stamp, [x] + s)
  {
    var r := [x] + s;
    forall i, j | 0 <= i < j < |r|
      ensures Key(stamp, r[i]) >= Key(stamp, r[j])
    {
      if i == 0 {
        assert r[j] == s[j - 1];
        assert Key(stamp, s[0]) >= Key(stamp, s[j - 1]) || j == 1;
      } else {
        assert r[i] == s[i - 1] && r[j] == s[j - 1];
      }
    }
  }

  /** Dropping the newest post keeps the rest newest first. */
  lemma NewestFirstTail(stamp: string -> int, s: seq<Post>)
    requires |s| > 0 && NewestFirst(stamp, s)
    ensures NewestFirst(stamp, s[1..])
  {
    forall i, j | 0 <= i < j < |s| - 1
      ensures Key(stamp, s[1..][i]) >= Key(stamp, s[1..][j])
    {
      assert s[1..][i] == s[i + 1] && s[1..][j] == s[j + 1];
    }
  }

  lemma WithKeyCons(stamp: string -> int, x: Post, s: seq<Post>, k: int)
    ensures WithKey(stamp, [x] + s, k) == (if Key(stamp, x) == k then [x] else []) + WithKey(stamp, s, k)
  {
    assert ([x] + s)[1..] == s;
  }

  /** `blogs.sort((a, b) => time(b.date) - time(a.date))`, a stable sort,
      as an insertion sort. */
  function SortNewestFirst(stamp: string -> int, s: seq<Post>): (r: seq<Post>)
    ensures NewestFirst(stamp, r)
    ensures multiset(r) == multiset(s)
  {
    if |s| == 0 then []
    else
      assert s == [s[0]] + s[1..];
      Insert(stamp, s[0], SortNewestFirst(stamp, s[1..]))
  }

  lemma {:induction false} InsertWithKey(stamp: string -> int, p: Post, s: seq<Post>, k: int)
    requires NewestFirst(stamp, s)
    ensures WithKey(stamp, Insert(stamp, p, s), k)
      == (if Key(stamp, p) == k then [p] else []) + WithKey(stamp, s, k)
  {
    if |s| == 0 || Key(stamp, p) >= Key(stamp, s[0]) {
      WithKeyCons(stamp, p, s, k);
    } else {
      var tail := s[1..];
      NewestFirstTail(stamp, s);
      var rest := Insert(stamp, p, tail);
      assert Insert(stamp, p, s) == [s[0]] + rest;
      WithKeyCons(stamp, s[0], rest, k);
      InsertWithKey(stamp, p, tail, k);
      assert s == [s[0]] + tail;
      WithKeyCons(stamp, s[0], tail, k);
      var pk := if Key(stamp, p) == k then [p] else [];
      var hk := if Key(stamp, s[0]) == k then [s[0]] else [];
      var w := WithKey(stamp, tail, k);
      if hk == [] {
        assert hk + w == w;
        assert hk + (pk + w) == pk + w;
      } else {
        assert pk == [];
        assert pk + w == w;
        assert pk + (hk + w) == hk + w;
      }
    }
  }

  /** The sort is stable: posts with the same date keep the order the
      directory listed them in. */
  lemma {:induction false} SortIsStable(stamp: string -> int, s: seq<Post>, k: int)
    ensures WithKey(stamp, SortNewestFirst(stamp, s), k) == WithKey(stamp, s, k)
  {
    if |s| > 0 {
      SortIsStable(stamp, s[1..], k);
      InsertWithKey(stamp, s[0], SortNewestFirst(stamp, s[1..]), k);
    }
  }

  /** `getAllBlogs()`: `None` stands for a missing blog directory or a
      listing that threw, both of which give no posts. */
  function GetAllBlogs(stamp: string -> int, dir: Option<seq<DirEntry>>): (r: seq<Post>)
    ensures dir.None? ==> r == []
    ensures dir.Some? ==> multiset(r) == multiset(Collect(dir.value)) && NewestFirst(stamp, r)
  {
    match dir
    case None => []
    case Some(entries) => SortNewestFirst(stamp, Collect(entries))
  }

  /** The cache window in milliseconds. */
  const CacheDuration: int := 0

  /** The test at the top of `getAllBlogs` that would return the cached
      list. */
  predicate ServesBlogCache(cached: bool, now: int, cachedAt: int)
    ensures !ServesBlogCache(cached, now, cachedAt)
  {
    CacheDuration > 0 && cached && now - cachedAt < CacheDuration
  }

  /** The test at the top of `getFeaturedBlogs`, which lacks the
      `CACHE_DURATION > 0` guard. */
  predicate ServesFeaturedCache(featuredCached: bool, blogsCached: bool, now: int, cachedAt: int)
    ensures ServesFeaturedCache(featuredCached, blogsCached, now, cachedAt) ==> now < cachedAt
  {
    featuredCached && blogsCached && now - cachedAt < CacheDuration
  }

  /** With a zero window every call reloads the posts. */
  lemma BlogCacheNeverServed(cached: bool, now: int, cachedAt: int)
    ensures !ServesBlogCache(cached, now, cachedAt)
  {
  }

  /** The featured list is served from cache only when the clock reads
      earlier than it did at the last load. */
  lemma FeaturedCacheNeedsClockBackwards(fc: bool, bc: bool, now: int, cachedAt: int)
    ensures ServesFeaturedCache(fc, bc, now, cachedAt) <==> fc && bc && now < cachedAt
  {
  }

  /** `getBlogCount()`: the number of posts loaded, which is the number of
      directory entries that are admitted. */
  function GetBlogCount(stamp: string -> int, dir: Option<seq<DirEntry>>): (n: nat)
    ensures dir.Some? ==> n == |Collect(dir.value)|
    ensures dir.None? ==> n == 0
  {
    var blogs := GetAllBlogs(stamp, dir);
    assert |multiset(blogs)| == |blogs|;
    |blogs|
  }

  /** `blogs.find(b => b.id === id) || null`. */
  function FindById(blogs: seq<Post>, id: string): (r: Option<Post>)
    ensures r.None? <==> forall i :: 0 <= i < |blogs| ==> blogs[i].id != id
    ensures r.Some? ==> exists i :: (0 <= i < |blogs| && blogs[i] == r.value
      && r.value.id == id && forall j :: 0 <= j < i ==> blogs[j].id != id)
  {
    if |blogs| == 0 then None
    else if blogs[0].id == id then
      assert blogs[0] == blogs[0];
      Some(blogs[0])
    else
      var r := FindById(blogs[1..], id);
      assert forall j :: 1 <= j < |blogs| ==> blogs[j] == blogs[1..][j - 1];
      if r.Some? then
        var i :| (0 <= i < |blogs[1..]| && blogs[1..][i] == r.value
          && r.value.id == id && forall j :: 0 <= j < i ==> blogs[1..][j].id != id);
        assert blogs[i + 1] == r.value;
        r
      else r
  }

  /** The filter predicate of `getBlogsByCategory`. */
  function InCategory(category: string): Post -> bool {
    (p: Post) => p.category == category
  }

  /** `getBlogsByCategory(category)`: exact category equality, in order. */
  function GetBlogsByCategory(blogs: seq<Post>, category: string): (r: seq<Post>)
    ensures forall i :: 0 <= i < |r| ==> r[i].category == category
    ensures forall i :: 0 <= i < |blogs| ==> (blogs[i] in r <==> blogs[i].category == category)
    ensures multiset(r) <= multiset(blogs)
  {
    Filter(blogs, InCategory(category))
  }

  /** Together with `GetBlogsByCategoryOne`, this pins the result down as
      the matching posts in their original order, each as often as it
      occurs. */
  lemma {:induction false} GetBlogsByCategoryConcat(a: seq<Post>, b: seq<Post>, category: string)
    ensures GetBlogsByCategory(a + b, category) == GetBlogsByCategory(a, category) + GetBlogsByCategory(b, category)
  {
    FilterConcat(a, b, InCategory(category));
  }

  lemma {:induction false} GetBlogsByCategoryOne(p: Post, category: string)
    ensures GetBlogsByCategory([p], category) == if p.category == category then [p] else []
  {
    FilterSingleton(p, InCategory(category));
  }

  /** Some searched field of the post, lowered, contains `lowerQuery`. */
  predicate FieldsContain(p: Post, lowerQuery: string) {
    || Contains(Lower(p.title), lowerQuery)
    || Contains(Lower(p.excerpt), lowerQuery)
    || Contains(Lower(p.content), lowerQuery)
    || Contains(Lower(p.category), lowerQuery)
  }

  /** The filter predicate of `searchBlogs`. */
  function Searched(lowerQuery: string): Post -> bool {
    (p: Post) => FieldsContain(p, lowerQuery)
  }

  /** `searchBlogs(query)`: the lowered query, not trimmed, against title,
      excerpt, content and category, in order. */
  function SearchBlogs(blogs: seq<Post>, query: string): (r: seq<Post>)
    ensures forall i :: 0 <= i < |r| ==> FieldsContain(r[i], Lower(query))
    ensures forall i :: 0 <= i < |blogs| ==> (blogs[i] in r <==> FieldsContain(blogs[i], Lower(query)))
    ensures multiset(r) <= multiset(blogs)
  {
    Filter(blogs, Searched(Lower(query)))
  }

  /** Together with `SearchBlogsOne`: the hits in their original order,
      each as often as it occurs. */
  lemma {:induction false} SearchBlogsConcat(a: seq<Post>, b: seq<Post>, query: string)
    ensures SearchBlogs(a + b, query) == SearchBlogs(a, query) + SearchBlogs(b, query)
  {
    FilterConcat(a, b, Searched(Lower(query)));
  }

  lemma {:induction false} SearchBlogsOne(p: Post, query: string)
    ensures SearchBlogs([p], query) == if FieldsContain(p, Lower(query)) then [p] else []
  {
    FilterSingleton(p, Searched(Lower(query)));
  }

  /** Lexicographic order on code points, the order of the default
      `sort()` on these strings. */
  predicate Below(a: string, b: string) {
    if |a| == 0 then |b| > 0
    else |b| > 0 && (a[0] < b[0] || (a[0] == b[0] && Below(a[1..], b[1..])))
  }

  lemma {:induction false} BelowIrreflexive(a: string)
    ensures !Below(a, a)
  {
    if |a| > 0 {
      BelowIrreflexive(a[1..]);
    }
  }

  lemma {:induction false} BelowTransitive(a: string, b: string, c: string)
    requires Below(a, b) && Below(b, c)
    ensures Below(a, c)
  {
    if |a| > 0 && a[0] == b[0] && b[0] == c[0] {
      BelowTransitive(a[1..], b[1..], c[1..]);
    }
  }

  lemma {:induction false} BelowTotal(a: string, b: string)
    requires a != b
    ensures Below(a, b) || Below(b, a)
  {
    if |a| > 0 && |b| > 0 && a[0] == b[0] {
      assert a == [a[0]] + a[1..];
      assert b == [b[0]] + b[1..];
      BelowTotal(a[1..], b[1..]);
    }
  }

  /** Strictly ascending: sorted and without repeats. */
  predicate Ascending(s: seq<string>) {
    forall i, j :: 0 <= i < j < |s| ==> Below(s[i], s[j])
  }

  /** Adds `c` to an ascending list unless it is already there. */
  function AddCategory(c: string, s: seq<string>): (r: seq<string>)
    requires Ascending(s)
    ensures Ascending(r)
    ensures forall x :: x in r <==> x == c || x in s
    ensures |r| > 0 && (r[0] == c || (|s| > 0 && r[0] == s[0]))
  {
    if |s| == 0 then [c]
    else if c == s[0] then s
    else if Below(c, s[0]) then
      assert forall j :: 0 <= j < |s| ==> Below(c, s[j]) by {
        forall j | 0 <= j < |s| ensures Below(c, s[j]) {
          if j > 0 { BelowTransitive(c, s[0], s[j]); }
        }
      }
      [c] + s
    else
      BelowTotal(c, s[0]);
      assert s == [s[0]] + s[1..];
      var rest := AddCategory(c, s[1..]);
      assert forall j :: 0 <= j < |rest| ==> Below(s[0], rest[j]) by {
        forall j | 0 <= j < |rest| ensures Below(s[0], rest[j]) {
          assert rest[j] in rest;
          if rest[j] != c {
            var k :| 0 <= k < |s[1..]| && s[1..][k] == rest[j];
            assert s[k + 1] == rest[j];
          }
        }
      }
      [s[0]] + rest
  }

  /** The categories of `blogs`, each once, ascending. */
  function Categories(blogs: seq<Post>): (r: seq<string>)
    ensures Ascending(r)
  {
    if |blogs| == 0 then [] else AddCategory(blogs[0].category, Categories(blogs[1..]))
  }

  /** `getAllCategories()`: every category of the loaded posts appears, and
      nothing else does; each appears once and the list is sorted. */
  lemma {:induction false} CategoriesExact(blogs: seq<Post>)
    ensures forall i :: 0 <= i < |blogs| ==> blogs[i].category in Categories(blogs)
    ensures forall c :: c in Categories(blogs) ==> exists i :: 0 <= i < |blogs| && blogs[i].category == c
  {
    if |blogs| > 0 {
      CategoriesExact(blogs[1..]);
      assert forall j :: 1 <= j < |blogs| ==> blogs[j] == blogs[1..][j - 1];
    }
  }

  /** An ascending list has no repeats. */
  lemma AscendingDistinct(s: seq<string>)
    requires Ascending(s)
    ensures forall i, j :: 0 <= i < j < |s| ==> s[i] != s[j]
  {
    forall i, j | 0 <= i < j < |s| ensures s[i] != s[j] {
      if s[i] == s[j] { BelowIrreflexive(s[i]); }
    }
  }

  /** Where `getFeaturedBlogs` reads its id list from: the featured file
      is absent, unreadable (which the function's `catch` turns into `[]`),
      or parsed with its `featuredIds` field (`None` when falsy). */
  datatype FeaturedFile = Absent | Unreadable | Parsed(featuredIds: Option<seq<string>>)

  /** For each listed id, in list order, the first post with that id; ids
      with no post are skipped. */
  function Featured(ids: seq<string>, blogs: seq<Post>): (r: seq<Post>)
    ensures |r| <= |ids|
    ensures forall i :: 0 <= i < |r| ==> r[i] in blogs && r[i].id in ids
  {
    if |ids| == 0 then []
    else
      var rest := Featured(ids[1..], blogs);
      assert forall i :: 0 <= i < |rest| ==> rest[i].id in ids by {
        forall i | 0 <= i < |rest| ensures rest[i].id in ids {
          var k :| 0 <= k < |ids[1..]| && ids[1..][k] == rest[i].id;
          assert ids[k + 1] == rest[i].id;
        }
      }
      match FindById(blogs, ids[0])
      case Some(p) => [p] + rest
      case None => rest
  }

  /** The featured list follows the id list: one part per id, in order. */
  lemma {:induction false} FeaturedConcat(a: seq<string>, b: seq<string>, blogs: seq<Post>)
    ensures Featured(a + b, blogs) == Featured(a, blogs) + Featured(b, blogs)
  {
    if |a| == 0 {
      assert a + b == b;
    } else {
      assert (a + b)[1..] == a[1..] + b;
      FeaturedConcat(a[1..], b, blogs);
    }
  }

  /** One id contributes its first post, or nothing when there is none; an
      id listed twice therefore contributes twice. */
  lemma FeaturedOne(id: string, blogs: seq<Post>)
    ensures Featured([id], blogs) == match FindById(blogs, id) case Some(p) => [p] case None => []
  {
  }

  /** `getFeaturedBlogs()` on the freshly loaded posts. */
  function GetFeaturedBlogs(file: FeaturedFile, blogs: seq<Post>): (r: seq<Post>)
    ensures !file.Parsed? ==> r == []
    ensures file.Parsed? ==> r == Featured(file.featuredIds.GetOr([]), blogs)
  {
    match file
    case Absent => []
    case Unreadable => []
    case Parsed(ids) => Featured(ids.GetOr([]), blogs)
  }
}

=== FILE: blogs_api.dfy ===
/** The public `GET /api/blogs` route: the featured list, a search or every
    post, cut to the `limit` query parameter. */
module BlogsApi {
  import opened Wrappers
  import opened Text
  import opened Seqs
  import opened Posts
  import opened BlogLoader

  /** What `parseInt` returns: a number or `NaN`. Its magnitude is kept
      exact; `slice` clamps it to the list length either way. */
  datatype Number = NaN | Int(n: int)

  /** The value of `c` as a digit in radixes up to 36, and 36 for a
      character that is a digit in none. */
  function DigitValue(c: char): (v: nat)
    ensures v <= 36
    ensures v < 10 <==> '0' <= c <= '9'
  {
    if '0' <= c <= '9' then c as int - '0' as int
    else if 'a' <= c <= 'z' then c as int - 'a' as int + 10
    else if 'A' <= c <= 'Z' then c as int - 'A' as int + 10
    else 36
  }

  predicate IsDigit(c: char, radix: nat) {
    DigitValue(c) < radix
  }

  /** The end of the run of radix-`radix` digits that starts at `i`. */
  function DigitEnd(s: string, i: nat, radix: nat): (k: nat)
    requires i <= |s|
    ensures i <= k <= |s|
    ensures forall m :: i <= m < k ==> IsDigit(s[m], radix)
    ensures k < |s| ==> !IsDigit(s[k], radix)
    decreases |s| - i
  {
    if i < |s| && IsDigit(s[i], radix) then DigitEnd(s, i + 1, radix) else i
  }

  /** The value of the digits `s[i..k]`, most significant first. */
  function ValueOf(s: string, i: nat, k: nat, radix: nat): nat
    requires i <= k <= |s|
    decreases k - i
  {
    if k == i then 0 else ValueOf(s, i, k - 1, radix) * radix + DigitValue(s[k - 1])
  }

  /** `parseInt(s)` with no radix: leading white space skipped, one
      optional sign, a `0x` or `0X` prefix selecting radix 16 and radix 10
      otherwise, then the longest run of digits; `NaN` when that run is
      empty. */
  function ParseInt(s: string): (r: Number)
    ensures r.Int? ==> exists i :: 0 <= i < |s| && IsDigit(s[i], 10)
  {
    var i := Lead(s);
    var neg := i < |s| && s[i] == '-';
    var j := if i < |s| && (s[i] == '-' || s[i] == '+') then i + 1 else i;
    var hex := j + 1 < |s| && s[j] == '0' && (s[j + 1] == 'x' || s[j + 1] == 'X');
    var radix := if hex then 16 else 10;
    var d := if hex then j + 2 else j;
    var k := DigitEnd(s, d, radix);
    if k == d then NaN
    else
      assert if hex then IsDigit(s[j], 10) else IsDigit(s[d], 10);
      var v: int := ValueOf(s, d, k, radix);
      Int(if neg then -v else v)
  }

  /** Digits appended after a run do not change its value. */
  lemma {:induction false} ValueOfPrefix(s: string, t: string, i: nat, k: nat, radix: nat)
    requires i <= k <= |s|
    ensures ValueOf(s + t, i, k, radix) == ValueOf(s, i, k, radix)
    decreases k - i
  {
    if k > i {
      ValueOfPrefix(s, t, i, k - 1, radix);
      assert (s + t)[k - 1] == s[k - 1];
    }
  }

  /** The decimal digits of `n` read back as `n`. */
  lemma {:induction false} DigitsValue(n: nat)
    ensures ValueOf(Digits(n), 0, |Digits(n)|, 10) == n
  {
    if n >= 10 {
      var init := Digits(n / 10);
      var c := ('0' as int + n % 10) as char;
      DigitsValue(n / 10);
      ValueOfPrefix(init, [c], 0, |init|, 10);
      assert Digits(n) == init + [c];
      assert Digits(n)[|init|] == c;
    }
  }

  lemma {:induction false} DigitEndAll(s: string, i: nat, radix: nat)
    requires i <= |s|
    requires forall m :: i <= m < |s| ==> IsDigit(s[m], radix)
    ensures DigitEnd(s, i, radix) == |s|
    decreases |s| - i
  {
    if i < |s| {
      DigitEndAll(s, i + 1, radix);
    }
  }

  /** The decimal digits of a number parse back to it. */
  lemma ParseDigits(m: nat)
    ensures ParseInt(Digits(m)) == Int(m)
  {
    var s := Digits(m);
    assert !IsSpace(s[0]);
    assert Lead(s) == 0;
    DigitsValue(m);
    DigitEndAll(s, 0, 10);
  }

  /** A minus sign before the decimal digits of a number parses to its
      negation. */
  lemma ParseMinusDigits(m: nat)
    requires m > 0
    ensures ParseInt("-" + Digits(m)) == Int(-(m as int))
  {
    var ds := Digits(m);
    var s := "-" + ds;
    assert !IsSpace(s[0]);
    assert Lead(s) == 0;
    DigitsValue(m);
    forall k | 1 <= k < |s| ensures IsDigit(s[k], 10) {
      assert s[k] == ds[k - 1];
    }
    DigitEndAll(s, 1, 10);
    assert s[1] == ds[0];
    ValueOfShift("-", ds, |ds|);
  }

  /** `parseInt(String(n))` is `n`: the limit a client writes as a
      decimal number is the limit the route applies. */
  lemma ParseIntDecimal(n: int)
    ensures ParseInt(Decimal(n)) == Int(n)
  {
    if n < 0 {
      ParseMinusDigits(-n);
    } else {
      ParseDigits(n);
    }
  }

  /** A run read after a prefix has the value it has on its own. */
  lemma {:induction false} ValueOfShift(p: string, s: string, k: nat)
    requires k <= |s|
    ensures ValueOf(p + s, |p|, |p| + k, 10) == ValueOf(s, 0, k, 10)
    decreases k
  {
    if k > 0 {
      ValueOfShift(p, s, k - 1);
      assert (p + s)[|p| + k - 1] == s[k - 1];
    }
  }

  /** The three query parameters; `None` when the parameter is absent
      (`searchParams.get` returning `null`). */
  datatype Params = Params(q: Option<string>, limit: Option<string>, featured: Option<string>)

  /** A parameter is truthy when present and not the empty string. */
  predicate Given(p: Option<string>) {
    p.Some? && p.value != ""
  }

  /** `limit ? list.slice(0, parseInt(limit)) : list`; `slice` reads `NaN`
      as 0. */
  function Limited(posts: seq<Post>, limit: Option<string>): (r: seq<Post>)
    ensures |r| <= |posts| && r == posts[..|r|]
    ensures !Given(limit) ==> r == posts
  {
    if Given(limit) then
      match ParseInt(limit.value)
      case NaN => []
      case Int(n) => Slice(posts, 0, n)
    else posts
  }

  /** Where the route's three lists come from: the loaded posts and the
      featured-list file. */
  datatype Source = Source(blogs: seq<Post>, featuredFile: FeaturedFile)

  /** The body of `GET /api/blogs`: the featured list when `featured` is
      exactly `"true"`, otherwise the search results for a non-empty `q`,
      otherwise every post; each cut by `limit`. */
  function Get(params: Params, src: Source): (r: seq<Post>)
    ensures forall i :: 0 <= i < |r| ==> r[i] in src.blogs
    ensures params.featured == Some("true") ==>
      |r| <= |GetFeaturedBlogs(src.featuredFile, src.blogs)| && r == GetFeaturedBlogs(src.featuredFile, src.blogs)[..|r|]
    ensures params.featured == Some("true") && !Given(params.limit) ==> r == GetFeaturedBlogs(src.featuredFile, src.blogs)
    ensures params.featured != Some("true") && Given(params.q) ==>
      forall i :: 0 <= i < |r| ==> FieldsContain(r[i], Lower(params.q.value))
    ensures params.featured != Some("true") && Given(params.q) ==>
      |r| <= |SearchBlogs(src.blogs, params.q.value)| && r == SearchBlogs(src.blogs, params.q.value)[..|r|]
    ensures params.featured != Some("true") && Given(params.q) && !Given(params.limit) ==>
      r == SearchBlogs(src.blogs, params.q.value)
    ensures params.featured != Some("true") && !Given(params.q) ==> |r| <= |src.blogs| && r == src.blogs[..|r|]
    ensures params.featured != Some("true") && !Given(params.q) && !Given(params.limit) ==> r == src.blogs
  {
    if params.featured == Some("true") then
      Limited(GetFeaturedBlogs(src.featuredFile, src.blogs), params.limit)
    else if Given(params.q) then
      Limited(SearchBlogs(src.blogs, params.q.value), params.limit)
    else
      Limited(src.blogs, params.limit)
  }

  /** A non-negative decimal limit keeps that many posts, or all of them
      when there are fewer. */
  lemma LimitKeepsFirst(posts: seq<Post>, n: nat)
    ensures Limited(posts, Some(Decimal(n))) == if n <= |posts| then posts[..n] else posts
  {
    ParseIntDecimal(n);
  }

  /** A negative decimal limit drops that many posts from the end. */
  lemma NegativeLimitDropsLast(posts: seq<Post>, n: nat)
    requires 0 < n
    ensures Limited(posts, Some(Decimal(-(n as int)))) == if n <= |posts| then posts[..|posts| - n] else []
  {
    ParseIntDecimal(-(n as int));
  }

  /** A limit with no decimal digit at all, such as `"all"`, `"none"` or
      `"max"`, parses to NaN and yields nothing. */
  lemma NonNumericLimitEmpty(posts: seq<Post>, limit: string)
    requires limit != "" && forall i :: 0 <= i < |limit| ==> !IsDigit(limit[i], 10)
    ensures Limited(posts, Some(limit)) == []
  {
  }

  /** `?limit=all` in particular returns an empty list, whatever the posts. */
  lemma AllLimitEmpty(posts: seq<Post>)
    ensures Limited(posts, Some("all")) == []
  {
    NonNumericLimitEmpty(posts, "all");
  }

  /** `featured=true` takes precedence: the search text is then ignored. */
  lemma FeaturedIgnoresQuery(q1: Option<string>, q2: Option<string>, limit: Option<string>, src: Source)
    ensures Get(Params(q1, limit, Some("true")), src) == Get(Params(q2, limit, Some("true")), src)
  {
  }

  /** An empty `q` is the same as no `q`: every post is listed. */
  lemma EmptyQueryListsAll(limit: Option<string>, featured: Option<string>, src: Source)
    ensures Get(Params(Some(""), limit, featured), src) == Get(Params(None, limit, featured), src)
  {
  }
}

=== FILE: category_view.dfy ===
/** The category view: the posts of one category, searchable with the
    same translate effect as the search box, six to a page, with
    previous/next buttons and a window of page buttons. */
module CategoryView {
  import opened Text
  import opened Seqs
  import opened Posts
  import Classifier
  import QueryState
  import Resolver
  import Matcher
  import Fallback
  import BentoGrid
  import BlogLoader
  import opened Wrappers

  const ItemsPerPage: nat := 6

  datatype View = View(q: QueryState.Query, page: int)

  /** The view as it opens: no query, first page. */
  const Initial: View := View(QueryState.Initial, 1)

  /** The posts the current query lets through: all of them while the
      translated query is blank, otherwise only posts of the list. */
  function Filtered(posts: seq<Post>, v: View): (r: seq<Post>)
    ensures Trim(v.q.translated) == "" ==> r == posts
    ensures |r| <= |posts| && forall i :: 0 <= i < |r| ==> r[i] in posts
  {
    Matcher.CategoryMatch(posts, v.q.query, v.q.translated)
  }

  /** `Math.ceil(n / ITEMS_PER_PAGE)`. */
  function TotalPages(n: nat): (r: nat)
    ensures r * ItemsPerPage >= n
    ensures n == 0 ==> r == 0
  {
    (n + ItemsPerPage - 1) / ItemsPerPage
  }

  /** The page count is the ceiling: just enough pages of six for `n`
      items, and none for no items. */
  lemma TotalPagesIsCeiling(n: nat)
    ensures TotalPages(n) == 0 <==> n == 0
    ensures n > 0 ==> (TotalPages(n) - 1) * ItemsPerPage < n <= TotalPages(n) * ItemsPerPage
  {
  }

  /** `items.slice((page - 1) * 6, (page - 1) * 6 + 6)`. */
  function PageItems<T>(items: seq<T>, page: int): (r: seq<T>)
    ensures |r| <= ItemsPerPage
    ensures forall i :: 0 <= i < |r| ==> r[i] in items
  {
    var start := (page - 1) * ItemsPerPage;
    Slice(items, start, start + ItemsPerPage)
  }

  /** Page `page` holds items `(page-1)*6` onwards, at most six of them. */
  lemma PageIsWindow<T>(items: seq<T>, page: int)
    requires page >= 1
    ensures var start := (page - 1) * ItemsPerPage;
      PageItems(items, page) ==
        if start >= |items| then []
        else items[start..if start + ItemsPerPage <= |items| then start + ItemsPerPage else |items|]
  {
  }

  /** Every page before the last is full, the last holds the rest (one to
      six items), and pages past the last are empty. */
  lemma PageSizes<T>(items: seq<T>, page: int)
    requires page >= 1
    ensures page < TotalPages(|items|) ==> |PageItems(items, page)| == ItemsPerPage
    ensures page == TotalPages(|items|) ==>
      |PageItems(items, page)| == |items| - (page - 1) * ItemsPerPage
      && 1 <= |PageItems(items, page)| <= ItemsPerPage
    ensures page > TotalPages(|items|) ==> PageItems(items, page) == []
  {
    PageIsWindow(items, page);
  }

  /** Pages `from` to `last`, one after the other. */
  function PagesFrom<T>(items: seq<T>, from: int, last: int): seq<T>
    requires from >= 1
    decreases last - from + 1
  {
    if from > last then [] else PageItems(items, from) + PagesFrom(items, from + 1, last)
  }

  lemma {:induction false} PagesFromRest<T>(items: seq<T>, from: int)
    requires 1 <= from <= TotalPages(|items|) + 1
    ensures var start := (from - 1) * ItemsPerPage;
      PagesFrom(items, from, TotalPages(|items|)) == items[if start <= |items| then start else |items|..]
    decreases TotalPages(|items|) - from + 1
  {
    var last := TotalPages(|items|);
    if from <= last {
      PagesFromRest(items, from + 1);
      PageIsWindow(items, from);
      var start := (from - 1) * ItemsPerPage;
      var next := from * ItemsPerPage;
      if next <= |items| {
        assert items[start..] == items[start..next] + items[next..];
      } else {
        assert items[start..] == items[start..|items|] + items[|items|..];
      }
    } else {
      TotalPagesIsCeiling(|items|);
    }
  }

  /** The pages, read in order, are the filtered list: nothing is lost,
      repeated or reordered by paging. */
  lemma PagesCoverAll<T>(items: seq<T>)
    ensures PagesFrom(items, 1, TotalPages(|items|)) == items
  {
    PagesFromRest(items, 1);
  }

  /** Any edit of the query goes back to the first page. */
  function SearchChange(v: View, text: string): (r: View)
    ensures r.page == 1 && r.q.query == text
  {
    View(QueryState.SetQuery(v.q, text), 1)
  }

  /** The previous button: one page back, never below the first. */
  function Prev(v: View): (r: View)
    ensures v.page > 1 ==> r.page == v.page - 1
    ensures v.page <= 1 ==> r.page == 1
    ensures r.page >= 1 && r.q == v.q
  {
    v.(page := if v.page - 1 > 1 then v.page - 1 else 1)
  }

  /** The next button: one page on, never past the last. */
  function Next(v: View, total: nat): (r: View)
    ensures v.page < total ==> r.page == v.page + 1
    ensures v.page >= total ==> r.page == total
    ensures r.page <= total && r.q == v.q
  {
    v.(page := if v.page + 1 < total then v.page + 1 else total)
  }

  /** A numbered page button is clicked. */
  function GoTo(v: View, page: int): (r: View)
    ensures r.page == page && r.q == v.q
  {
    v.(page := page)
  }

  /** The buttons keep the page within `[1, total]`. */
  lemma PrevNextStayInRange(v: View, total: nat)
    requires 1 <= v.page <= total
    ensures 1 <= Prev(v).page <= total
    ensures 1 <= Next(v, total).page <= total
  {
  }

  /** What the page-button row shows for one page number. */
  datatype Control = Numbered | Ellipsis | Hidden

  function ControlFor(page: int, current: int, total: int): (r: Control)
    ensures r == Ellipsis ==> page == current - 2 || page == current + 2
    ensures r == Hidden ==> page != 1 && page != total && (page < current - 2 || page > current + 2)
  {
    if page == 1 || page == total || (current - 1 <= page <= current + 1) then Numbered
    else if page == current - 2 || page == current + 2 then Ellipsis
    else Hidden
  }

  /** The row of page controls is drawn inside the branch for a non-empty
      page, and there only when there is more than one page; so it needs
      more than six filtered posts. */
  predicate ShowsControls(posts: seq<Post>, v: View)
    ensures ShowsControls(posts, v) ==> |Filtered(posts, v)| > ItemsPerPage && |Visible(posts, v)| > 0
  {
    |Visible(posts, v)| > 0 && TotalPages(|Filtered(posts, v)|) > 1
  }

  /** The first, the last and the current page always have a number, and
      no page further than one from the current one has a number unless it
      is the first or the last. */
  lemma NumberedPages(page: int, current: int, total: int)
    requires 1 <= current <= total && 1 <= page <= total
    ensures page == 1 || page == total || page == current ==> ControlFor(page, current, total) == Numbered
    ensures ControlFor(page, current, total) == Numbered ==>
      page == 1 || page == total || current - 1 <= page <= current + 1
  {
  }

  /** No run of pages is skipped silently: every page without a number
      lies beyond an ellipsis two away from the current page, on its side. */
  lemma GapsAreMarked(page: int, current: int, total: int)
    requires 1 <= current <= total && 1 <= page <= total
    requires ControlFor(page, current, total) != Numbered
    ensures page < current ==> page <= current - 2 && ControlFor(current - 2, current, total) == Ellipsis
    ensures page > current ==> page >= current + 2 && ControlFor(current + 2, current, total) == Ellipsis
  {
  }

  /** The list the view draws, as written: the current page of the
      filtered posts, whatever the number of pages now is. */
  function Visible(posts: seq<Post>, v: View): (r: seq<Post>)
    ensures |r| <= ItemsPerPage
    ensures forall i :: 0 <= i < |r| ==> r[i] in posts
  {
    PageItems(Filtered(posts, v), v.page)
  }

  /** Typing an English word on the fresh view: the request waits on
      the timer and the old, empty translation stays. */
  lemma TypingEnglish(w: string)
    requires Classifier.IsEnglish(Trim(w))
    ensures SearchChange(Initial, w)
      == View(QueryState.Query(w, "", true, Some(Trim(w)), []), 1)
  {
    QueryState.EnglishSchedules(QueryState.Initial, w);
  }

  /** The next button pressed twice while the list of the view is
      recomputed from `posts`. */
  function NextTwice(posts: seq<Post>, v: View): View {
    var total := TotalPages(|Filtered(posts, v)|);
    Next(Next(v, total), total)
  }

  /** The timer fires and the only request comes back with `h`. */
  function Answered(v: View, h: string): View {
    var v3 := v.(q := QueryState.TimerFires(v.q));
    v3.(q := QueryState.Respond(v3.q, 0, Resolver.Served(Some(h))))
  }

  /** The view after the sequence of events of the counterexample below:
      type `w`, press next twice, let the timer fire, and receive `h`. */
  function StaleView(posts: seq<Post>, w: string, h: string): View {
    Answered(NextTwice(posts, SearchChange(Initial, w)), h)
  }

  /** With an empty translation every post is listed, so from page 1 the
      next button pressed twice reaches page 3 of thirteen posts or more. */
  lemma NextTwiceOverAll(posts: seq<Post>, v: View)
    requires |posts| >= 13 && v.q.translated == "" && v.page == 1
    ensures NextTwice(posts, v) == v.(page := 3)
  {
    assert Filtered(posts, v) == posts;
  }

  /** While the translation is pending every post is listed, so with
      thirteen posts or more the next button reaches page 3. */
  lemma PagedToThree(posts: seq<Post>, w: string)
    requires |posts| >= 13
    requires Classifier.IsEnglish(Trim(w))
    ensures NextTwice(posts, SearchChange(Initial, w))
      == View(QueryState.Query(w, "", true, Some(Trim(w)), []), 3)
  {
    var v1 := View(QueryState.Query(w, "", true, Some(Trim(w)), []), 1);
    TypingEnglish(w);
    NextTwiceOverAll(posts, v1);
  }

  /** The reply for the pending request becomes the translation. */
  lemma ReplyArrives(w: string, h: string, page: int)
    requires h != "" && h != Trim(w)
    ensures Answered(View(QueryState.Query(w, "", true, Some(Trim(w)), []), page), h)
      == View(QueryState.Query(w, h, false, None, []), page)
  {
    var q := QueryState.Query(w, "", true, Some(Trim(w)), []);
    assert QueryState.TimerFires(q) == QueryState.Query(w, "", true, None, [Trim(w)]);
  }

  /** After that sequence the page is still 3 while only the first post
      matches. */
  lemma StaleViewState(posts: seq<Post>, w: string, h: string)
    requires |posts| >= 13
    requires Classifier.IsEnglish(Trim(w))
    requires h != "" && h != Trim(w) && Trim(h) != ""
    requires Matcher.CategoryHit(posts[0], Matcher.Term(h), Matcher.Term(w))
    requires forall i :: 1 <= i < |posts| ==> !Matcher.CategoryHit(posts[i], Matcher.Term(h), Matcher.Term(w))
    ensures StaleView(posts, w, h).page == 3
    ensures Filtered(posts, StaleView(posts, w, h)) == [posts[0]]
  {
    var v3 := View(QueryState.Query(w, "", true, Some(Trim(w)), []), 3);
    var v4 := View(QueryState.Query(w, h, false, None, []), 3);
    assert StaleView(posts, w, h) == Answered(v3, h) by {
      PagedToThree(posts, w);
    }
    assert Answered(v3, h) == v4 by {
      ReplyArrives(w, h, 3);
    }
    assert Filtered(posts, v4) == [posts[0]] by {
      Matcher.OnlyFirstMatches(posts, w, h);
    }
  }

  /** The counterexample. An English word `w` is typed while thirteen or
      more posts are listed: until its translation `h` arrives the old
      (empty) translation keeps all posts listed, so the next button leads
      to page 3. When `h` arrives and only one post matches, the page stays
      at 3: the view draws no posts and no page controls although a post
      matches. */
  lemma EmptyPageWhileAPostMatches(posts: seq<Post>, w: string, h: string)
    requires |posts| >= 13
    requires Classifier.IsEnglish(Trim(w))
    requires h != "" && h != Trim(w) && Trim(h) != ""
    requires Matcher.CategoryHit(posts[0], Matcher.Term(h), Matcher.Term(w))
    requires forall i :: 1 <= i < |posts| ==> !Matcher.CategoryHit(posts[i], Matcher.Term(h), Matcher.Term(w))
    ensures var v := StaleView(posts, w, h);
      Filtered(posts, v) == [posts[0]] && Visible(posts, v) == []
      && TotalPages(|Filtered(posts, v)|) == 1 && !ShowsControls(posts, v)
  {
    StaleViewState(posts, w, h);
    PageSizes([posts[0]], 3);
  }

  /** A page past the last draws nothing, and with it go the page
      controls, however many pages the list has: the buttons that could
      lead back are not drawn. */
  lemma StalePageHidesControls(posts: seq<Post>, v: View)
    requires v.page >= 1 && TotalPages(|Filtered(posts, v)|) < v.page
    ensures Visible(posts, v) == [] && !ShowsControls(posts, v)
  {
    PageSizes(Filtered(posts, v), v.page);
  }

  /** The category the example posts share: the grid's first tile. */
  const StuckCategory: string := BentoGrid.Categories[0]

  /** A post of that category with the same text in every other field. */
  function Uniform(text: string): (p: Post)
    ensures p.category == StuckCategory
    ensures p.title == p.excerpt == p.content == text
  {
    Post(text, text, text, text, text, text, StuckCategory, text, 1)
  }

  /** Thirteen posts of one category: one with "y" in every text field,
      then twelve with "z". */
  function StuckPosts(): (posts: seq<Post>)
    ensures |posts| == 13 && posts[0] == Uniform("y")
    ensures forall i :: 1 <= i < |posts| ==> posts[i] == Uniform("z")
  {
    [Uniform("y")] + seq(12, _ => Uniform("z"))
  }

  /** Those thirteen posts are exactly what the grid hands the category
      view when its first tile is clicked over them. */
  lemma StuckPostsAreOneTile()
    ensures BentoGrid.Show(BentoGrid.Select(BentoGrid.Grid(None), StuckCategory), StuckPosts())
      == BentoGrid.CategoryScreen(StuckCategory, StuckPosts())
  {
    var posts := StuckPosts();
    assert forall i :: 0 <= i < |posts| ==> posts[i].category == StuckCategory;
    FilterAll(posts, BlogLoader.InCategory(StuckCategory));
    SelectedCategoryShown(posts, StuckCategory);
  }

  /** A clicked non-empty category is shown with its posts. */
  lemma SelectedCategoryShown(posts: seq<Post>, c: string)
    requires c != ""
    ensures BentoGrid.Show(BentoGrid.Select(BentoGrid.Grid(None), c), posts)
      == BentoGrid.CategoryScreen(c, BentoGrid.CategoryPosts(posts, c))
  {
  }

  /** The counterexample on concrete input: typing "x" over those thirteen
      posts, pressing next twice, and receiving the translation "y" leaves
      the view on an empty page 3 without page controls, while the first
      post matches. */
  lemma EmptyPageExample()
    ensures var v := StaleView(StuckPosts(), "x", "y");
      Filtered(StuckPosts(), v) == [Uniform("y")] && Visible(StuckPosts(), v) == []
      && TotalPages(|Filtered(StuckPosts(), v)|) == 1 && !ShowsControls(StuckPosts(), v)
  {
    var posts := StuckPosts();
    TrimOfTrimmed("x");
    TrimOfTrimmed("y");
    Classifier.LowerWordsAreEnglish("x");
    assert Lower("x") == "x" && Lower("y") == "y" && Lower("z") == "z";
    assert Matcher.Term("x") == "x" && Matcher.Term("y") == "y";
    assert OccursAt("y", "y", 0);
    assert Matcher.CategoryHit(posts[0], "y", "x");
    Fallback.AbsentInitial("z", "y");
    Fallback.AbsentInitial("z", "x");
    assert !Matcher.CategoryHit(Uniform("z"), "y", "x");
    EmptyPageWhileAPostMatches(posts, "x", "y");
  }

  /** The page the view should draw: the current page, brought back into
      `[1, total]` when the list has shrunk under it. */
  function ShownPage(page: int, total: nat): (p: int)
    ensures total >= 1 ==> 1 <= p <= total
    ensures 1 <= page <= total ==> p == page
  {
    if page > total then (if total >= 1 then total else 1)
    else if page < 1 then 1
    else page
  }

  /** The list the view draws with the page brought into range. */
  function VisibleClamped(posts: seq<Post>, v: View): (r: seq<Post>)
    ensures forall i :: 0 <= i < |r| ==> r[i] in posts
  {
    var items := Filtered(posts, v);
    PageItems(items, ShownPage(v.page, TotalPages(|items|)))
  }

  /** With the page in range, a non-empty filtered list always shows at
      least one post, and never more than a page. */
  lemma ClampedPageNeverEmpty(posts: seq<Post>, v: View)
    ensures Filtered(posts, v) != [] ==> VisibleClamped(posts, v) != []
    ensures |VisibleClamped(posts, v)| <= ItemsPerPage
  {
    var items := Filtered(posts, v);
    var total := TotalPages(|items|);
    var page := ShownPage(v.page, total);
    PageIsWindow(items, page);
    if items != [] {
      TotalPagesIsCeiling(|items|);
    }
  }
}

=== FILE: classifier.dfy ===
/** The "is this English?" test that decides whether a query is sent for
    translation. The same function appears in the search box, the category
    view and the translation endpoint. */
module Classifier {
  import opened Text

  /** The characters of the class `[a-zA-Z0-9\s.,!?'"()-]`. */
  predicate Allowed(c: char) {
    || 'a' <= c <= 'z' || 'A' <= c <= 'Z' || '0' <= c <= '9'
    || IsSpace(c)
    || c == '.' || c == ',' || c == '!' || c == '?' || c == '\''
    || c == '"' || c == '(' || c == ')' || c == '-'
  }

  /** The anchored pattern `^[...]+$`: non-empty, every character allowed. */
  predicate Whitelisted(s: string) {
    |s| > 0 && forall i :: 0 <= i < |s| ==> Allowed(s[i])
  }

  /** The pattern `[ऀ-ॿ]` finds a match somewhere in `s`. */
  predicate HasDevanagari(s: string) {
    exists i :: 0 <= i < |s| && IsDevanagari(s[i])
  }

  /** `isEnglish(text)`: Devanagari anywhere rejects; otherwise the trimmed
      text must be a non-empty run of whitelisted characters. */
  function IsEnglish(text: string): (r: bool)
    ensures HasDevanagari(text) ==> !r
    ensures r ==> Trim(text) != "" && |text| > 0
  {
    if HasDevanagari(text) then false else Whitelisted(Trim(text))
  }

  /** No Devanagari code point is on the whitelist. */
  lemma DevanagariNotAllowed(c: char)
    requires IsDevanagari(c)
    ensures !Allowed(c)
  {
  }

  /** The Devanagari test never changes the answer: a string is English
      exactly when its trimmed form is a non-empty whitelisted run. */
  lemma IsEnglishIffWhitelisted(text: string)
    ensures IsEnglish(text) <==> Whitelisted(Trim(text))
  {
    if HasDevanagari(text) {
      var i :| 0 <= i < |text| && IsDevanagari(text[i]);
      var t := Trim(text);
      assert !IsSpace(text[i]);
      assert Lead(text) <= i < Lead(text) + |t|;
      assert t[i - Lead(text)] == text[i];
      DevanagariNotAllowed(text[i]);
    }
  }

  /** Empty and white-space-only strings are never English. */
  lemma BlankIsNotEnglish(text: string)
    requires AllSpace(text)
    ensures !IsEnglish(text)
  {
    TrimEmptyIffAllSpace(text);
  }

  /** Surrounding white space does not change the verdict, so callers that
      trim first get the same answer. */
  lemma IsEnglishOfTrimmed(text: string)
    ensures IsEnglish(Trim(text)) == IsEnglish(text)
  {
    IsEnglishIffWhitelisted(text);
    IsEnglishIffWhitelisted(Trim(text));
    TrimIdempotent(text);
  }

  /** Lower-case words separated by spaces are English. */
  lemma LowerWordsAreEnglish(s: string)
    requires |s| > 0 && s[0] != ' ' && s[|s| - 1] != ' '
    requires forall i :: 0 <= i < |s| ==> 'a' <= s[i] <= 'z' || s[i] == ' '
    ensures IsEnglish(s)
  {
    TrimOfTrimmed(s);
  }

  lemma EnglishExample()
    ensures IsEnglish("jain philosophy")
  {
    var s := "jain philosophy";
    assert forall i :: 0 <= i < |s| ==> 'a' <= s[i] <= 'z' || s[i] == ' ' by {
      forall i | 0 <= i < |s| ensures 'a' <= s[i] <= 'z' || s[i] == ' ' {
        assert s[i] in "abcdefghijklmnopqrstuvwxyz ";
      }
    }
    LowerWordsAreEnglish(s);
  }

  lemma MixedScriptExample()
    ensures !IsEnglish("jain धर्म")
  {
    assert IsDevanagari("jain धर्म"[5]);
  }

  lemma OtherSymbolExample()
    ensures !IsEnglish("jain_dharma")
  {
    TrimOfTrimmed("jain_dharma");
    assert !Allowed("jain_dharma"[4]);
  }
}

=== FILE: fallback.dfy ===
/** The partial-word dictionary the site falls back on when the
    translation service gives nothing useful: a fixed, ordered list of
    English fragments and the Hindi word each one stands for. The source
    repeats the same table at every place a translation is resolved; here it
    is defined once. */
module Fallback {
  import opened Wrappers
  import opened Text

  /** The table in declaration order, which is the order it is searched. */
  const PartialWords: seq<(string, string)> := [
    ("mahav", "महावीर"),
    ("jain", "जैन"),
    ("dharm", "धर्म"),
    ("bhag", "भगवान"),
    ("swam", "स्वामी")
  ]

  /** The Hindi word of the first fragment in `table` that occurs in
      `lower`, if any. */
  function FirstHit(lower: string, table: seq<(string, string)>): (r: Option<string>)
    ensures r.Some? <==> exists i :: 0 <= i < |table| && Contains(lower, table[i].0)
    ensures r.Some? ==> exists i :: 0 <= i < |table| && r.value == table[i].1
  {
    if |table| == 0 then None
    else if Contains(lower, table[0].0) then Some(table[0].1)
    else
      var r := FirstHit(lower, table[1..]);
      assert forall i :: 1 <= i < |table| ==> table[i] == table[1..][i - 1];
      r
  }

  /** The dictionary fallback: the query, lowered, is searched for each
      fragment in turn; the first one found decides the result, and a query
      with no fragment is returned unchanged. */
  function Apply(query: string): (r: string)
    ensures (forall j :: 0 <= j < |PartialWords| ==> !Contains(Lower(query), PartialWords[j].0)) ==> r == query
    ensures r == query || exists i :: 0 <= i < |PartialWords| && r == PartialWords[i].1
  {
    FirstHit(Lower(query), PartialWords).GetOr(query)
  }

  /** The first matching fragment wins: if fragment `i` occurs and no
      earlier one does, the result is the Hindi word of fragment `i`. */
  lemma {:induction false} FirstHitIsFirst(lower: string, table: seq<(string, string)>, i: nat)
    requires i < |table| && Contains(lower, table[i].0)
    requires forall j :: 0 <= j < i ==> !Contains(lower, table[j].0)
    ensures FirstHit(lower, table) == Some(table[i].1)
  {
    if i > 0 {
      assert forall j :: 0 <= j < i - 1 ==> table[1..][j] == table[j + 1];
      FirstHitIsFirst(lower, table[1..], i - 1);
    }
  }

  lemma ApplyFirstMatch(query: string, i: nat)
    requires i < |PartialWords| && Contains(Lower(query), PartialWords[i].0)
    requires forall j :: 0 <= j < i ==> !Contains(Lower(query), PartialWords[j].0)
    ensures Apply(query) == PartialWords[i].1
  {
    FirstHitIsFirst(Lower(query), PartialWords, i);
  }

  /** With no fragment in the query, the query comes back unchanged. */
  lemma ApplyNoMatch(query: string)
    requires forall j :: 0 <= j < |PartialWords| ==> !Contains(Lower(query), PartialWords[j].0)
    ensures Apply(query) == query
  {
  }

  /** The result is the query itself or one of the five Hindi words, and
      so it is never empty for a non-empty query. */
  lemma ApplyRange(query: string)
    ensures Apply(query) == query || exists i :: 0 <= i < |PartialWords| && Apply(query) == PartialWords[i].1
    ensures query != "" ==> Apply(query) != ""
  {
  }

  /** Matching ignores ASCII case: two queries that lower to the same text
      pick the same dictionary word. */
  lemma ApplyIgnoresCase(q1: string, q2: string)
    requires Lower(q1) == Lower(q2)
    requires FirstHit(Lower(q1), PartialWords).Some?
    ensures Apply(q1) == Apply(q2)
  {
  }

  /** `for (const [partial, fullHindi] of Object.entries(partialWordMap))
      { if (lowerQuery.includes(partial)) { translated = fullHindi; break; } }`
      with `translated` starting at `init`, as every call site writes it. */
  method Scan(lowerQuery: string, init: string) returns (translated: string)
    ensures translated == FirstHit(lowerQuery, PartialWords).GetOr(init)
  {
    translated := init;
    var k := 0;
    while k < |PartialWords|
      invariant 0 <= k <= |PartialWords|
      invariant translated == init
      invariant FirstHit(lowerQuery, PartialWords) == FirstHit(lowerQuery, PartialWords[k..])
    {
      var (partial, fullHindi) := PartialWords[k];
      assert PartialWords[k..][1..] == PartialWords[k + 1..];
      if Contains(lowerQuery, partial) {
        translated := fullHindi;
        break;
      }
      k := k + 1;
    }
  }

  /** A string with no upper-case ASCII letter is its own lowering. */
  lemma LowerOfLowerCase(s: string)
    requires forall i :: 0 <= i < |s| ==> !('A' <= s[i] <= 'Z')
    ensures Lower(s) == s
  {
  }

  /** A fragment whose first letter is absent from `s` does not occur. */
  lemma AbsentInitial(s: string, sub: string)
    requires |sub| > 0 && forall i :: 0 <= i < |s| ==> s[i] != sub[0]
    ensures !Contains(s, sub)
  {
  }

  /** A lower-case query that contains "jain" but not "mahav" resolves to
      "जैन", whatever else it contains. */
  lemma JainWithoutMahav(q: string)
    requires Lower(q) == q && !Contains(q, "mahav") && Contains(q, "jain")
    ensures Apply(q) == "जैन"
  {
    ApplyFirstMatch(q, 1);
  }

  lemma JainPhilosophyLetters()
    ensures forall i :: 0 <= i < |"jain philosophy"| ==>
      "jain philosophy"[i] != 'm' && !('A' <= "jain philosophy"[i] <= 'Z')
  {
    var q := "jain philosophy";
    forall i | 0 <= i < |q| ensures q[i] != 'm' && !('A' <= q[i] <= 'Z') {
      assert q[i] in "jain philosopy";
    }
  }

  lemma JainPhilosophyIsLower()
    ensures Lower("jain philosophy") == "jain philosophy"
  {
    JainPhilosophyLetters();
    LowerOfLowerCase("jain philosophy");
  }

  lemma JainPhilosophyHasNoMahav()
    ensures !Contains("jain philosophy", "mahav")
  {
    JainPhilosophyLetters();
    AbsentInitial("jain philosophy", "mahav");
  }

  /** The worked example: "jain philosophy" has no "mahav" (there is no
      'm' in it) and has "jain", so it falls back to "जैन". */
  lemma JainExample()
    ensures Apply("jain philosophy") == "जैन"
  {
    JainPhilosophyIsLower();
    JainPhilosophyHasNoMahav();
    assert OccursAt("jain philosophy", "jain", 0);
    JainWithoutMahav("jain philosophy");
  }

  /** A query with no fragment, "xyz123", comes back unchanged. */
  lemma NoFragmentExample()
    ensures Apply("xyz123") == "xyz123"
  {
    var q := "xyz123";
    assert forall i :: 0 <= i < |q| ==> q[i] in "xyz123" && !('A' <= q[i] <= 'Z');
    LowerOfLowerCase(q);
    forall j | 0 <= j < |PartialWords| ensures !Contains(q, PartialWords[j].0) {
      AbsentInitial(q, PartialWords[j].0);
    }
    ApplyNoMatch(q);
  }
}

=== FILE: json.dfy ===
/** The JSON values the site reads from request bodies, files and the
    translation service, with JavaScript's truthiness and `String()`. */
module Json {
  import Text

  /** A parsed JSON value as JavaScript sees it; numbers are integers
      here, and the members of an object are not looked into. */
  datatype JsValue =
    | JUndefined
    | JNull
    | JBool(b: bool)
    | JNum(n: int)
    | JStr(s: string)
    | JArray(elems: seq<JsValue>)
    | JObject

  /** The values `if (v)` and `filter(Boolean)` let through; every array
      and object is truthy, even an empty one. */
  predicate Truthy(v: JsValue) {
    match v
    case JUndefined => false
    case JNull => false
    case JBool(b) => b
    case JNum(n) => n != 0
    case JStr(s) => s != ""
    case JArray(_) => true
    case JObject => true
  }

  /** `String(v)`, which `join` and template literals apply; an array
      prints as its elements joined by commas. */
  function ToText(v: JsValue): (r: string)
    ensures v.JStr? ==> r == v.s
    ensures Truthy(v) && !v.JArray? ==> r != ""
    decreases v, 1
  {
    match v
    case JUndefined => "undefined"
    case JNull => "null"
    case JBool(b) => if b then "true" else "false"
    case JNum(n) => Text.Decimal(n)
    case JStr(s) => s
    case JArray(elems) => JoinElems(elems)
    case JObject => "[object Object]"
  }

  /** `Array.prototype.join(',')`: `null` and `undefined` elements print
      as nothing. */
  function JoinElems(elems: seq<JsValue>): (r: string)
    ensures |elems| == 0 ==> r == ""
    ensures |elems| == 1 && elems[0].JStr? ==> r == elems[0].s
    decreases elems, 0
  {
    if |elems| == 0 then ""
    else
      var head := if elems[0].JUndefined? || elems[0].JNull? then "" else ToText(elems[0]);
      if |elems| == 1 then head else head + "," + JoinElems(elems[1..])
  }
}

=== FILE: markdown.dfy ===
/** The inline markdown parser: `**bold**` and `*italic*` runs found by two
    global regular expressions, italic runs that start inside a bold run
    dropped, the rest ordered by position and cut into verbatim text and
    formatted pieces. */
module Markdown {
  import opened Wrappers
  import opened Text
  import opened Seqs

  datatype Kind = Bold | Italic

  /** One regular-expression match: its kind and the span `[start, end)`
      it covers. The captured group is the span without its delimiters
      (see `Content`). */
  datatype Match = Match(kind: Kind, start: nat, end: nat)

  /** An element of the parser's result: verbatim text, a `<strong>` or an
      `<em>` element. */
  datatype Part = Plain(text: string) | Strong(content: string) | Em(content: string)

  function Delim(k: Kind): (d: string)
    ensures |d| == Width(k) && forall i :: 0 <= i < |d| ==> d[i] == '*'
  {
    if k == Bold then "**" else "*"
  }

  function Width(k: Kind): nat {
    if k == Bold then 2 else 1
  }

  /** Two asterisks in a row start at index `m`. */
  predicate StarPair(text: string, m: int) {
    0 <= m && m + 1 < |text| && text[m] == '*' && text[m + 1] == '*'
  }

  /** The bold pattern (two asterisks, a lazy `.*?`, two asterisks)
      matches `text[i..e]`: two asterisks, the shortest run of characters
      other than line terminators, two asterisks. */
  predicate IsBoldMatch(text: string, i: nat, e: nat) {
    i + 4 <= e <= |text| && StarPair(text, i) && StarPair(text, e - 2)
    && (forall m :: i + 2 <= m < e - 2 ==> !IsLineTerminator(text[m]))
    && (forall m {:trigger StarPair(text, m)} :: i + 2 <= m < e - 2 ==> !StarPair(text, m))
  }

  /** The italic pattern (an asterisk behind a negative look-behind for
      an asterisk, a lazy run of non-asterisks, an asterisk before a
      negative look-ahead for one) matches `text[i..e]`: an asterisk not
      preceded by one, one or more other characters, and an asterisk not
      followed by one. */
  predicate IsItalicMatch(text: string, i: nat, e: nat) {
    i + 3 <= e <= |text| && text[i] == '*' && (i == 0 || text[i - 1] != '*')
    && text[e - 1] == '*' && (e == |text| || text[e] != '*')
    && forall m :: i < m < e - 1 ==> text[m] != '*'
  }

  predicate IsMatch(text: string, kind: Kind, i: nat, e: nat) {
    match kind
    case Bold => IsBoldMatch(text, i, e)
    case Italic => IsItalicMatch(text, i, e)
  }

  /** The lazy `.*?` of the bold pattern opened at `i`: from `k` on, the
      first closing pair, unless a line terminator comes first. */
  function CloseBold(text: string, k: nat): (r: Option<nat>)
    requires k <= |text|
    ensures r.Some? ==> k + 2 <= r.value <= |text|
    decreases |text| - k
  {
    if k + 2 > |text| then None
    else if StarPair(text, k) then Some(k + 2)
    else if IsLineTerminator(text[k]) then None
    else CloseBold(text, k + 1)
  }

  /** `CloseBold` finds the bold match opened at `i`, and when it finds
      none there is none. */
  lemma {:induction false} CloseBoldMatches(text: string, i: nat, k: nat)
    requires StarPair(text, i) && i + 2 <= k <= |text|
    requires forall m :: i + 2 <= m < k ==> !IsLineTerminator(text[m])
    requires forall m {:trigger StarPair(text, m)} :: i + 2 <= m < k ==> !StarPair(text, m)
    ensures CloseBold(text, k).Some? ==> IsBoldMatch(text, i, CloseBold(text, k).value)
    ensures CloseBold(text, k).None? ==> forall e :: !IsBoldMatch(text, i, e)
    decreases |text| - k
  {
    if k + 2 > |text| {
      forall e: nat ensures !IsBoldMatch(text, i, e) {
      }
    } else if StarPair(text, k) {
    } else if IsLineTerminator(text[k]) {
      forall e: nat ensures !IsBoldMatch(text, i, e) {
      }
    } else {
      CloseBoldMatches(text, i, k + 1);
    }
  }

  /** The lazy `[^*]+?` of the italic pattern opened at `i`: the first
      asterisk after the opening one closes the run, if at least one
      character lies between and no asterisk follows it. */
  function CloseItalic(text: string, i: nat, k: nat): (r: Option<nat>)
    requires i + 1 <= k <= |text|
    ensures r.Some? ==> i + 3 <= r.value <= |text|
    decreases |text| - k
  {
    if k == |text| then None
    else if text[k] == '*' then
      if k >= i + 2 && (k + 1 == |text| || text[k + 1] != '*') then Some(k + 1) else None
    else CloseItalic(text, i, k + 1)
  }

  /** `CloseItalic` finds the italic match opened at `i`, and when it
      finds none there is none. */
  lemma {:induction false} CloseItalicMatches(text: string, i: nat, k: nat)
    requires i < |text| && text[i] == '*' && (i == 0 || text[i - 1] != '*')
    requires i + 1 <= k <= |text|
    requires forall m :: i < m < k ==> text[m] != '*'
    ensures CloseItalic(text, i, k).Some? ==> IsItalicMatch(text, i, CloseItalic(text, i, k).value)
    ensures CloseItalic(text, i, k).None? ==> forall e :: !IsItalicMatch(text, i, e)
    decreases |text| - k
  {
    if k == |text| {
    } else if text[k] == '*' {
      forall e: nat ensures CloseItalic(text, i, k).None? ==> !IsItalicMatch(text, i, e) {
        if IsItalicMatch(text, i, e) {
          assert e - 1 == k;
        }
      }
    } else {
      CloseItalicMatches(text, i, k + 1);
    }
  }

  /** The end of the match of pattern `kind` that starts at `i`, if any. */
  function At(text: string, kind: Kind, i: nat): (r: Option<nat>)
    ensures r.Some? ==> i + 2 * Width(kind) <= r.value <= |text|
  {
    match kind
    case Bold =>
      if StarPair(text, i) then CloseBold(text, i + 2) else None
    case Italic =>
      if i < |text| && text[i] == '*' && (i == 0 || text[i - 1] != '*') then CloseItalic(text, i, i + 1)
      else None
  }

  /** `At` is exactly the pattern: it finds the match that starts at `i`
      when there is one, and only then. */
  lemma AtMatches(text: string, kind: Kind, i: nat)
    ensures At(text, kind, i).Some? ==> IsMatch(text, kind, i, At(text, kind, i).value)
    ensures At(text, kind, i).None? ==> forall e :: !IsMatch(text, kind, i, e)
  {
    match kind
    case Bold =>
      if StarPair(text, i) {
        CloseBoldMatches(text, i, i + 2);
      }
    case Italic =>
      if i < |text| && text[i] == '*' && (i == 0 || text[i - 1] != '*') {
        CloseItalicMatches(text, i, i + 1);
      }
  }

  /** A match is determined by where it starts. */
  lemma MatchEndUnique(text: string, kind: Kind, i: nat, e1: nat, e2: nat)
    requires IsMatch(text, kind, i, e1) && IsMatch(text, kind, i, e2)
    ensures e1 == e2
  {
  }

  /** The `while ((match = re.exec(text)) !== null)` loop of a global
      pattern, from `lastIndex` = `p`: the leftmost match at or after `p`,
      then the search resumes where it ended. */
  function Scan(text: string, kind: Kind, p: nat): (r: seq<Match>)
    requires p <= |text|
    ensures forall j :: 0 <= j < |r| ==>
      r[j].kind == kind && p <= r[j].start && At(text, kind, r[j].start) == Some(r[j].end)
    decreases |text| - p
  {
    if p == |text| then []
    else
      match At(text, kind, p)
      case Some(e) =>
        var rest := Scan(text, kind, e);
        var r := [Match(kind, p, e)] + rest;
        assert forall j :: 1 <= j < |r| ==> r[j] == rest[j - 1];
        r
      case None => Scan(text, kind, p + 1)
  }

  /** One step of the scan that finds a match at `p`. */
  lemma ScanFound(text: string, kind: Kind, p: nat, e: nat)
    requires p < |text| && At(text, kind, p) == Some(e)
    ensures Scan(text, kind, p) == [Match(kind, p, e)] + Scan(text, kind, e)
  {
  }

  /** One step of the scan that finds no match at `p`. */
  lemma ScanSkips(text: string, kind: Kind, p: nat)
    requires p < |text| && At(text, kind, p).None?
    ensures Scan(text, kind, p) == Scan(text, kind, p + 1)
  {
  }

  /** Each match ends where or before every later one starts. */
  predicate Ordered(ms: seq<Match>) {
    forall j, k :: 0 <= j < k < |ms| ==> ms[j].end <= ms[k].start
  }

  /** A match put in front of ordered matches that all start at or after
      its end keeps them ordered. */
  lemma ConsOrdered(m: Match, rest: seq<Match>)
    requires Ordered(rest)
    requires forall j :: 0 <= j < |rest| ==> m.end <= rest[j].start
    ensures Ordered([m] + rest)
  {
    var r := [m] + rest;
    forall j, k | 0 <= j < k < |r| ensures r[j].end <= r[k].start {
      assert r[k] == rest[k - 1];
      if j > 0 {
        assert r[j] == rest[j - 1];
      }
    }
  }

  /** The matches come out left to right, none overlapping the next. */
  lemma {:induction false} ScanOrdered(text: string, kind: Kind, p: nat)
    requires p <= |text|
    ensures Ordered(Scan(text, kind, p))
    decreases |text| - p
  {
    if p < |text| {
      match At(text, kind, p)
      case Some(e) =>
        ScanFound(text, kind, p, e);
        ScanOrdered(text, kind, e);
        ConsOrdered(Match(kind, p, e), Scan(text, kind, e));
      case None =>
        ScanSkips(text, kind, p);
        ScanOrdered(text, kind, p + 1);
    }
  }

  /** Text without an asterisk holds no match. */
  lemma {:induction false} ScanNoStars(text: string, kind: Kind, p: nat)
    requires p <= |text|
    requires forall i :: 0 <= i < |text| ==> text[i] != '*'
    ensures Scan(text, kind, p) == []
    decreases |text| - p
  {
    if p < |text| {
      assert At(text, kind, p).None? by {
        assert text[p] != '*';
      }
      ScanSkips(text, kind, p);
      ScanNoStars(text, kind, p + 1);
    }
  }

  /** Position `i` lies in the span of one of `ms`. */
  predicate Covered(ms: seq<Match>, i: int) {
    exists j :: 0 <= j < |ms| && ms[j].start <= i < ms[j].end
  }

  /** The scan misses nothing: every position where the pattern matches is
      the start of a listed match or lies inside one. */
  lemma {:induction false} ScanComplete(text: string, kind: Kind, p: nat, i: nat)
    requires p <= i < |text| && At(text, kind, i).Some?
    ensures Covered(Scan(text, kind, p), i)
    decreases |text| - p
  {
    var r := Scan(text, kind, p);
    match At(text, kind, p)
    case Some(e) =>
      if i < e {
        assert r[0].start <= i < r[0].end;
      } else {
        ScanComplete(text, kind, e, i);
        var rest := Scan(text, kind, e);
        var j :| 0 <= j < |rest| && rest[j].start <= i < rest[j].end;
        assert r[j + 1] == rest[j];
      }
    case None =>
      ScanComplete(text, kind, p + 1, i);
  }

  /** The test an italic match must pass to be kept. */
  function OutsideOf(bolds: seq<Match>): Match -> bool {
    (m: Match) => !Covered(bolds, m.start)
  }

  function Bolds(text: string): (r: seq<Match>)
    ensures forall j :: 0 <= j < |r| ==> r[j].kind == Bold && At(text, Bold, r[j].start) == Some(r[j].end)
    ensures Ordered(r)
  {
    ScanOrdered(text, Bold, 0);
    Scan(text, Bold, 0)
  }

  /** The italic matches kept: those whose start is not inside a bold
      match. */
  function KeptItalics(text: string): (r: seq<Match>)
    ensures forall j :: 0 <= j < |r| ==>
      r[j].kind == Italic && At(text, Italic, r[j].start) == Some(r[j].end) && !Covered(Bolds(text), r[j].start)
    ensures multiset(r) <= multiset(Scan(text, Italic, 0))
  {
    var bolds := Bolds(text);
    Filter(Scan(text, Italic, 0), OutsideOf(bolds))
  }

  /** The source tests each italic match against every match collected so
      far, italic ones included; an earlier italic match never covers the
      start of a later one, so only the bold matches decide. */
  lemma EarlierItalicsNeverCover(text: string, j: nat, k: nat)
    requires j < k < |Scan(text, Italic, 0)|
    ensures !(Scan(text, Italic, 0)[j].start <= Scan(text, Italic, 0)[k].start < Scan(text, Italic, 0)[j].end)
  {
    ScanOrdered(text, Italic, 0);
  }

  /** An italic match that does not start inside a bold match does not
      overlap it at all: the italic run holds no asterisk, and its closing
      asterisk is not followed by one. */
  lemma ItalicClearOfBold(text: string, b: Match, it: Match)
    requires IsBoldMatch(text, b.start, b.end) && IsItalicMatch(text, it.start, it.end)
    requires !(b.start <= it.start < b.end)
    ensures Disjoint(b, it)
  {
  }

  /** Two spans that share no position. */
  predicate Disjoint(a: Match, b: Match) {
    a.end <= b.start || b.end <= a.start
  }

  /** Each match ends where or before the next one starts. */
  predicate Chained(ms: seq<Match>) {
    forall j :: 0 <= j < |ms| - 1 ==> ms[j].end <= ms[j + 1].start
  }

  /** Every match spans its two delimiters and ends inside the text. */
  predicate Within(text: string, ms: seq<Match>) {
    forall x :: x in ms ==> x.start + 2 * Width(x.kind) <= x.end <= |text|
  }

  /** One step of the stable sort by `start`: `m` goes before the first
      element that does not start before it. */
  function InsertByStart(m: Match, s: seq<Match>): (r: seq<Match>)
    ensures multiset(r) == multiset(s) + multiset{m}
    ensures r[0] == m || (|s| > 0 && r[0] == s[0])
  {
    if s == [] || m.start <= s[0].start then [m] + s
    else
      assert s == [s[0]] + s[1..];
      [s[0]] + InsertByStart(m, s[1..])
  }

  /** `matches.sort((a, b) => a.start - b.start)`, stable. */
  function SortByStart(s: seq<Match>): (r: seq<Match>)
    ensures multiset(r) == multiset(s)
  {
    if s == [] then []
    else
      assert s == [s[0]] + s[1..];
      InsertByStart(s[0], SortByStart(s[1..]))
  }

  /** Inserting a match disjoint from a chain keeps it a chain. */
  lemma {:induction false} InsertChained(m: Match, s: seq<Match>)
    requires Chained(s) && m.start < m.end
    requires forall x :: x in s ==> x.start < x.end && Disjoint(m, x)
    ensures Chained(InsertByStart(m, s))
  {
    if s != [] && m.start > s[0].start {
      assert s[0] in s;
      var rest := InsertByStart(m, s[1..]);
      forall x | x in s[1..] ensures x in s {
      }
      InsertChained(m, s[1..]);
      if |s| > 1 {
        assert s[1] in s;
      }
      var r := [s[0]] + rest;
      assert r == InsertByStart(m, s);
      forall j | 0 <= j < |r| - 1 ensures r[j].end <= r[j + 1].start {
        if j > 0 {
          assert r[j] == rest[j - 1] && r[j + 1] == rest[j];
        }
      }
    } else if s != [] {
      assert s[0] in s;
    }
  }

  /** Sorting matches that pairwise share no position yields a chain. */
  lemma {:induction false} SortChains(s: seq<Match>)
    requires forall x :: x in s ==> x.start < x.end
    requires forall j, k :: 0 <= j < k < |s| ==> Disjoint(s[j], s[k])
    ensures Chained(SortByStart(s))
  {
    if s != [] {
      var t := SortByStart(s[1..]);
      forall x | x in s[1..] ensures x in s {
      }
      SortChains(s[1..]);
      forall x | x in t ensures x.start < x.end && Disjoint(s[0], x) {
        assert x in multiset(s[1..]);
        var k :| 0 <= k < |s[1..]| && s[1..][k] == x;
        assert s[k + 1] == x;
      }
      assert s[0] in s;
      InsertChained(s[0], t);
    }
  }

  /** The collected matches, bold first, then the kept italic ones, sorted
      by where they start. */
  function Matches(text: string): (r: seq<Match>)
    ensures multiset(r) == multiset(Bolds(text)) + multiset(KeptItalics(text))
  {
    SortByStart(Bolds(text) + KeptItalics(text))
  }

  /** What the matches are: exactly the bold matches and the italic
      matches that start outside every bold match. */
  lemma MatchesMembership(text: string, x: Match)
    ensures x in Matches(text) <==>
      x in Bolds(text) || (x in Scan(text, Italic, 0) && !Covered(Bolds(text), x.start))
  {
    var bolds, italics := Bolds(text), Scan(text, Italic, 0);
    var kept := KeptItalics(text);
    assert x in Matches(text) <==> x in multiset(bolds + kept);
    if x in italics {
      var k :| 0 <= k < |italics| && italics[k] == x;
      assert x in kept <==> !Covered(bolds, x.start);
    } else {
      assert x !in kept;
    }
  }

  /** What one scanned match is: a match of the pattern starting where it
      says. */
  lemma ScanMember(text: string, kind: Kind, x: Match)
    requires x in Scan(text, kind, 0)
    ensures x.kind == kind && IsMatch(text, kind, x.start, x.end)
    ensures x.start + 2 * Width(kind) <= x.end <= |text|
  {
    var r := Scan(text, kind, 0);
    var j :| 0 <= j < |r| && r[j] == x;
    assert At(text, kind, x.start) == Some(x.end);
    AtMatches(text, kind, x.start);
  }

  /** Every collected match is a match of its pattern, and an italic one
      does not start inside a bold one. */
  lemma MatchesAreMatches(text: string, x: Match)
    requires x in Matches(text)
    ensures IsMatch(text, x.kind, x.start, x.end)
    ensures x.kind == Italic ==> !Covered(Bolds(text), x.start)
  {
    MatchesMembership(text, x);
    if x in Bolds(text) {
      ScanMember(text, Bold, x);
    } else {
      ScanMember(text, Italic, x);
    }
  }

  /** A bold match and a kept italic match share no position. */
  lemma BoldAndKeptApart(text: string, b: Match, it: Match)
    requires b in Bolds(text) && it in KeptItalics(text)
    ensures Disjoint(b, it)
  {
    ScanMember(text, Bold, b);
    ScanMember(text, Italic, it);
    var bolds := Bolds(text);
    assert !Covered(bolds, it.start);
    var j :| 0 <= j < |bolds| && bolds[j] == b;
    ItalicClearOfBold(text, b, it);
  }

  /** The kept italic matches are ordered like the scan they come from. */
  lemma KeptOrdered(text: string)
    ensures Ordered(KeptItalics(text))
  {
    var italics, kept := Scan(text, Italic, 0), KeptItalics(text);
    ScanOrdered(text, Italic, 0);
    var before := (a: Match, b: Match) => a.end <= b.start;
    assert forall j, k {:trigger before(italics[j], italics[k])} :: 0 <= j < k < |italics| ==> before(italics[j], italics[k]);
    FilterKeepsOrder(italics, OutsideOf(Bolds(text)), before);
    forall j, k | 0 <= j < k < |kept| ensures kept[j].end <= kept[k].start {
      assert before(kept[j], kept[k]);
    }
  }

  /** The collected matches, sorted, form a chain inside the text. */
  lemma MatchesChained(text: string)
    ensures Chained(Matches(text)) && Within(text, Matches(text))
  {
    var bolds, kept := Bolds(text), KeptItalics(text);
    var all := bolds + kept;
    ScanOrdered(text, Bold, 0);
    KeptOrdered(text);
    forall j, k | 0 <= j < k < |all| ensures Disjoint(all[j], all[k]) {
      if k < |bolds| {
        assert all[j] == bolds[j] && all[k] == bolds[k];
      } else if j < |bolds| {
        assert all[j] == bolds[j] && all[k] == kept[k - |bolds|];
        BoldAndKeptApart(text, bolds[j], kept[k - |bolds|]);
      } else {
        assert all[j] == kept[j - |bolds|] && all[k] == kept[k - |bolds|];
      }
    }
    forall x | x in all ensures x.start + 2 * Width(x.kind) <= x.end <= |text| {
      if x in bolds {
        ScanMember(text, Bold, x);
      } else {
        ScanMember(text, Italic, x);
      }
    }
    SortChains(all);
    forall x | x in Matches(text) ensures x.start + 2 * Width(x.kind) <= x.end <= |text| {
      assert x in multiset(all);
    }
  }

  /** Text without an asterisk has no matches. */
  lemma NoStarsNoMatches(text: string)
    requires forall i :: 0 <= i < |text| ==> text[i] != '*'
    ensures Matches(text) == []
  {
    ScanNoStars(text, Bold, 0);
    ScanNoStars(text, Italic, 0);
    assert KeptItalics(text) == [];
  }

  /** The captured group `match[1]`: the span without its delimiters. */
  function Content(text: string, m: Match): string
    requires m.start + 2 * Width(m.kind) <= m.end <= |text|
  {
    text[m.start + Width(m.kind)..m.end - Width(m.kind)]
  }

  /** The formatted element a match becomes. */
  function Piece(text: string, m: Match): Part
    requires m.start + 2 * Width(m.kind) <= m.end <= |text|
  {
    if m.kind == Bold then Strong(Content(text, m)) else Em(Content(text, m))
  }

  /** The text between the previous match and the next one, when there
      is any. */
  function Gap(text: string, last: nat, start: nat): (r: seq<Part>)
    requires start <= |text|
    ensures forall i :: 0 <= i < |r| ==> r[i].Plain? && r[i].text != []
    ensures last <= start ==> Render(r) == text[last..start]
  {
    if start > last then [Plain(text[last..start])] else []
  }

  /** The `forEach` over the sorted matches from `lastIndex` = `last`: the
      text skipped since the previous match when there is any, the
      formatted element, and at the end the text after the last match. */
  function Assemble(text: string, ms: seq<Match>, last: nat): (r: seq<Part>)
    requires last <= |text| && Within(text, ms)
    ensures forall i :: 0 <= i < |r| && r[i].Plain? ==> r[i].text != []
    decreases |ms|
  {
    if ms == [] then
      if last < |text| then [Plain(text[last..])] else []
    else
      var m := ms[0];
      assert m in ms;
      assert Within(text, ms[1..]) by {
        forall x | x in ms[1..] ensures x in ms {
        }
      }
      var gap := Gap(text, last, m.start);
      var rest := Assemble(text, ms[1..], m.end);
      var r := gap + [Piece(text, m)] + rest;
      assert forall i :: |gap| + 1 <= i < |r| ==> r[i] == rest[i - |gap| - 1];
      r
  }

  /** `parseMarkdown`: the assembled parts, or the whole text as the one
      part when there are none. */
  function Parse(text: string): (r: seq<Part>)
    ensures |r| > 0
    ensures Matches(text) == [] ==> r == [Plain(text)]
    ensures text != [] ==> forall i :: 0 <= i < |r| && r[i].Plain? ==> r[i].text != []
  {
    MatchesChained(text);
    var parts := Assemble(text, Matches(text), 0);
    if |parts| > 0 then parts else [Plain(text)]
  }

  /** Text without an asterisk comes through as the one verbatim part. */
  lemma ParsePlainText(text: string)
    requires forall i :: 0 <= i < |text| ==> text[i] != '*'
    ensures Parse(text) == [Plain(text)]
  {
    NoStarsNoMatches(text);
  }

  /** The text a part stands for, with its delimiters written back. */
  function RenderPart(p: Part): string {
    match p
    case Plain(t) => t
    case Strong(c) => Delim(Bold) + c + Delim(Bold)
    case Em(c) => Delim(Italic) + c + Delim(Italic)
  }

  function Render(parts: seq<Part>): string
    decreases |parts|
  {
    if parts == [] then [] else RenderPart(parts[0]) + Render(parts[1..])
  }

  lemma {:induction false} RenderConcat(a: seq<Part>, b: seq<Part>)
    ensures Render(a + b) == Render(a) + Render(b)
    decreases |a|
  {
    if a == [] {
      assert a + b == b;
    } else {
      assert (a + b)[1..] == a[1..] + b;
      RenderConcat(a[1..], b);
    }
  }

  /** The match's span is its delimiters around its content. */
  predicate Faithful(text: string, m: Match) {
    m.start + 2 * Width(m.kind) <= m.end <= |text|
    && text[m.start..m.end] == Delim(m.kind) + Content(text, m) + Delim(m.kind)
  }

  /** A match of its pattern spells out its delimiters around its
      captured group. */
  lemma MatchFaithful(text: string, m: Match)
    requires IsMatch(text, m.kind, m.start, m.end)
    ensures Faithful(text, m)
  {
    var w := Width(m.kind);
    var d := Delim(m.kind);
    assert text[m.start..m.end] == text[m.start..m.start + w] + Content(text, m) + text[m.end - w..m.end];
    if m.kind == Bold {
      assert StarPair(text, m.start) && StarPair(text, m.end - 2);
      assert text[m.start..m.start + w] == d;
      assert text[m.end - w..m.end] == d;
    } else {
      assert text[m.start..m.start + w] == d;
      assert text[m.end - w..m.end] == d;
    }
  }

  /** Every collected match spells out its delimiters and content. */
  lemma MatchesFaithful(text: string, m: Match)
    requires m in Matches(text)
    ensures Faithful(text, m)
  {
    MatchesAreMatches(text, m);
    MatchFaithful(text, m);
  }

  lemma SliceJoin(text: string, a: nat, b: nat, c: nat)
    requires a <= b <= c <= |text|
    ensures text[a..b] + text[b..c] + text[c..] == text[a..]
  {
  }

  /** A formatted element renders as the span of the match it came from. */
  lemma PieceRenders(text: string, m: Match)
    requires Faithful(text, m)
    ensures Render([Piece(text, m)]) == text[m.start..m.end]
  {
    assert Render([Piece(text, m)]) == RenderPart(Piece(text, m)) + Render([]);
  }

  /** One step of the assembly renders as the gap, then the match's span,
      then whatever follows. */
  lemma RenderStep(text: string, last: nat, m: Match, rest: seq<Part>)
    requires last <= m.start && Faithful(text, m) && Render(rest) == text[m.end..]
    ensures Render(Gap(text, last, m.start) + [Piece(text, m)] + rest) == text[last..]
  {
    var gap := Gap(text, last, m.start);
    calc {
      Render(gap + [Piece(text, m)] + rest);
      { RenderConcat(gap + [Piece(text, m)], rest); }
      Render(gap + [Piece(text, m)]) + Render(rest);
      { RenderConcat(gap, [Piece(text, m)]); }
      Render(gap) + Render([Piece(text, m)]) + Render(rest);
      { PieceRenders(text, m); }
      text[last..m.start] + text[m.start..m.end] + text[m.end..];
      { SliceJoin(text, last, m.start, m.end); }
      text[last..];
    }
  }

  /** Rendering the assembled parts gives back the text from `last` on:
      the gaps are copied verbatim and each match renders as its span. */
  lemma {:induction false} AssembleRenders(text: string, ms: seq<Match>, last: nat)
    requires last <= |text| && Within(text, ms) && Chained(ms)
    requires ms != [] ==> last <= ms[0].start
    requires forall m :: m in ms ==> Faithful(text, m)
    ensures Render(Assemble(text, ms, last)) == text[last..]
    decreases |ms|
  {
    if ms == [] {
      if last < |text| {
        assert Render([Plain(text[last..])]) == text[last..];
      }
    } else {
      var m := ms[0];
      assert m in ms;
      forall x | x in ms[1..] ensures x in ms {
      }
      var rest := Assemble(text, ms[1..], m.end);
      if |ms| > 1 {
        assert ms[1..][0] == ms[1];
      }
      AssembleRenders(text, ms[1..], m.end);
      RenderStep(text, last, m, rest);
      assert Assemble(text, ms, last) == Gap(text, last, m.start) + [Piece(text, m)] + rest;
    }
  }

  /** The parser loses nothing: writing the delimiters back around the
      formatted parts rebuilds the text. */
  lemma ParseRoundTrip(text: string)
    ensures Render(Parse(text)) == text
  {
    MatchesChained(text);
    var ms := Matches(text);
    forall m | m in ms ensures Faithful(text, m) {
      MatchesFaithful(text, m);
    }
    AssembleRenders(text, ms, 0);
    var parts := Assemble(text, ms, 0);
    assert Render(parts) == text by {
      assert text[0..] == text;
    }
    if parts == [] {
      assert Render([Plain(text)]) == text + Render([]);
    }
  }

  predicate IsFormatted(p: Part) {
    !p.Plain?
  }

  /** The formatted parts, in order. */
  function Formatted(parts: seq<Part>): seq<Part> {
    Filter(parts, IsFormatted)
  }

  /** The element each match becomes, in the matches' order. */
  function Pieces(text: string, ms: seq<Match>): (r: seq<Part>)
    requires Within(text, ms)
    ensures |r| == |ms|
    ensures forall i :: 0 <= i < |ms| ==> r[i] == Piece(text, ms[i])
  {
    if ms == [] then []
    else
      assert ms[0] in ms;
      assert Within(text, ms[1..]) by {
        forall x | x in ms[1..] ensures x in ms {
        }
      }
      [Piece(text, ms[0])] + Pieces(text, ms[1..])
  }

  /** The formatted parts are the matches in their sorted order, one
      element each. */
  lemma {:induction false} AssembleFormatted(text: string, ms: seq<Match>, last: nat)
    requires last <= |text| && Within(text, ms)
    ensures Formatted(Assemble(text, ms, last)) == Pieces(text, ms)
    decreases |ms|
  {
    if ms == [] {
      if last < |text| {
        FilterSingleton(Plain(text[last..]), IsFormatted);
      }
    } else {
      var m := ms[0];
      assert m in ms;
      forall x | x in ms[1..] ensures x in ms {
      }
      var gap := Gap(text, last, m.start);
      var rest := Assemble(text, ms[1..], m.end);
      AssembleFormatted(text, ms[1..], m.end);
      assert Assemble(text, ms, last) == gap + [Piece(text, m)] + rest;
      FilterConcat(gap + [Piece(text, m)], rest, IsFormatted);
      FilterConcat(gap, [Piece(text, m)], IsFormatted);
      FilterSingleton(Piece(text, m), IsFormatted);
      if gap != [] {
        FilterSingleton(gap[0], IsFormatted);
      }
      assert Pieces(text, ms) == [Piece(text, m)] + Pieces(text, ms[1..]);
    }
  }

  /** The formatted parts of the parse are the collected matches, in
      order of position, each as its element. */
  lemma ParseFormatted(text: string)
    ensures Within(text, Matches(text)) && Formatted(Parse(text)) == Pieces(text, Matches(text))
  {
    MatchesChained(text);
    AssembleFormatted(text, Matches(text), 0);
    if Assemble(text, Matches(text), 0) == [] {
      FilterSingleton(Plain(text), IsFormatted);
    }
  }
}

=== FILE: matcher.dfy ===
/** The two client-side filters that search the posts with both the
    translated query and the raw query: the global search box (which also
    looks at the category) and the category view (which does not). */
module Matcher {
  import opened Text
  import opened Seqs
  import opened Posts

  /** The lowered field contains one of the two search terms. */
  predicate FieldHit(field: string, searchTerm: string, originalTerm: string) {
    Contains(Lower(field), searchTerm) || Contains(Lower(field), originalTerm)
  }

  /** The search box's test: title, excerpt, content or category. */
  predicate GlobalHit(p: Post, searchTerm: string, originalTerm: string) {
    || FieldHit(p.title, searchTerm, originalTerm)
    || FieldHit(p.excerpt, searchTerm, originalTerm)
    || FieldHit(p.content, searchTerm, originalTerm)
    || FieldHit(p.category, searchTerm, originalTerm)
  }

  /** The category view's test: title, excerpt or content. */
  predicate CategoryHit(p: Post, searchTerm: string, originalTerm: string) {
    || FieldHit(p.title, searchTerm, originalTerm)
    || FieldHit(p.excerpt, searchTerm, originalTerm)
    || FieldHit(p.content, searchTerm, originalTerm)
  }

  /** `x.toLowerCase().trim()`. */
  function Term(x: string): string {
    Trim(Lower(x))
  }

  /** The search box's results: nothing for a blank translated query;
      otherwise the posts, in order, that contain either term. */
  function GlobalMatch(posts: seq<Post>, query: string, translated: string): (r: seq<Post>)
    ensures Trim(translated) == "" ==> r == []
    ensures Trim(translated) != "" ==> forall i :: 0 <= i < |posts| ==>
      (posts[i] in r <==> GlobalHit(posts[i], Term(translated), Term(query)))
    ensures forall i :: 0 <= i < |r| ==> r[i] in posts
    ensures multiset(r) <= multiset(posts)
  {
    if Trim(translated) == "" then []
    else Filter(posts, GlobalKeep(Term(translated), Term(query)))
  }

  /** The filter predicate of the global search. */
  function GlobalKeep(searchTerm: string, originalTerm: string): Post -> bool {
    (p: Post) => GlobalHit(p, searchTerm, originalTerm)
  }

  /** Together with `GlobalMatchOne`: the hits in their original order,
      each as often as it occurs. */
  lemma {:induction false} GlobalMatchConcat(a: seq<Post>, b: seq<Post>, query: string, translated: string)
    ensures GlobalMatch(a + b, query, translated) == GlobalMatch(a, query, translated) + GlobalMatch(b, query, translated)
  {
    if Trim(translated) != "" {
      FilterConcat(a, b, GlobalKeep(Term(translated), Term(query)));
    }
  }

  lemma {:induction false} GlobalMatchOne(p: Post, query: string, translated: string)
    ensures GlobalMatch([p], query, translated) ==
      if Trim(translated) != "" && GlobalHit(p, Term(translated), Term(query)) then [p] else []
  {
    if Trim(translated) != "" {
      FilterSingleton(p, GlobalKeep(Term(translated), Term(query)));
    }
  }


  /** The category view's list: every post for a blank translated query;
      otherwise the posts, in order, whose title, excerpt or content
      contains either term. */
  function CategoryMatch(posts: seq<Post>, query: string, translated: string): (r: seq<Post>)
    ensures Trim(translated) == "" ==> r == posts
    ensures Trim(translated) != "" ==> forall i :: 0 <= i < |posts| ==>
      (posts[i] in r <==> CategoryHit(posts[i], Term(translated), Term(query)))
    ensures forall i :: 0 <= i < |r| ==> r[i] in posts
    ensures multiset(r) <= multiset(posts)
  {
    if Trim(translated) == "" then posts
    else Filter(posts, CategoryKeep(Term(translated), Term(query)))
  }

  /** The filter predicate of the category page's search. */
  function CategoryKeep(query': string, originalQuery: string): Post -> bool {
    (p: Post) => CategoryHit(p, query', originalQuery)
  }

  /** Together with `CategoryMatchOne`: the hits in their original order,
      each as often as it occurs. */
  lemma {:induction false} CategoryMatchConcat(a: seq<Post>, b: seq<Post>, query: string, translated: string)
    ensures CategoryMatch(a + b, query, translated) == CategoryMatch(a, query, translated) + CategoryMatch(b, query, translated)
  {
    if Trim(translated) != "" {
      FilterConcat(a, b, CategoryKeep(Term(translated), Term(query)));
    }
  }

  lemma {:induction false} CategoryMatchOne(p: Post, query: string, translated: string)
    ensures CategoryMatch([p], query, translated) ==
      if Trim(translated) == "" || CategoryHit(p, Term(translated), Term(query)) then [p] else []
  {
    if Trim(translated) != "" {
      FilterSingleton(p, CategoryKeep(Term(translated), Term(query)));
    }
  }

  /** Lowering keeps white space where it is, so the blank test on the raw
      translated query and on its lowered form agree. */
  lemma TermBlank(x: string)
    ensures Term(x) == "" <==> Trim(x) == ""
  {
    TrimEmptyIffAllSpace(x);
    TrimEmptyIffAllSpace(Lower(x));
  }

  /** A raw query that is blank after trimming matches every post, because
      the empty string occurs in every field. */
  lemma BlankRawTermMatchesAll(posts: seq<Post>, query: string, translated: string)
    requires Term(query) == "" && Trim(translated) != ""
    ensures GlobalMatch(posts, query, translated) == posts
    ensures CategoryMatch(posts, query, translated) == posts
  {
    forall p: Post ensures FieldHit(p.title, Term(translated), Term(query)) {
      ContainsEmpty(Lower(p.title));
    }
    var st, ot := Term(translated), Term(query);
    FilterAll(posts, (p: Post) => GlobalHit(p, st, ot));
    FilterAll(posts, (p: Post) => CategoryHit(p, st, ot));
  }

  /** When only the first post matches, the category view lists just it. */
  lemma OnlyFirstMatches(posts: seq<Post>, query: string, translated: string)
    requires Trim(translated) != "" && |posts| > 0
    requires CategoryHit(posts[0], Term(translated), Term(query))
    requires forall i :: 1 <= i < |posts| ==> !CategoryHit(posts[i], Term(translated), Term(query))
    ensures CategoryMatch(posts, query, translated) == [posts[0]]
  {
    var st, ot := Term(translated), Term(query);
    var keep := (p: Post) => CategoryHit(p, st, ot);
    FilterNone(posts[1..], keep);
  }

  /** The category view finds exactly the search box's results minus those
      that matched on the category alone, in the same order. */
  lemma {:induction false} CategoryRefinesGlobal(posts: seq<Post>, query: string, translated: string)
    requires Trim(translated) != ""
    ensures CategoryMatch(posts, query, translated)
      == Filter(GlobalMatch(posts, query, translated), (p: Post) => CategoryHit(p, Term(translated), Term(query)))
  {
    var st, ot := Term(translated), Term(query);
    var g := (p: Post) => GlobalHit(p, st, ot);
    var c := (p: Post) => CategoryHit(p, st, ot);
    FilterOfFilter(posts, g, c);
  }

  lemma {:induction false} FilterOfFilter(posts: seq<Post>, g: Post -> bool, c: Post -> bool)
    requires forall p: Post :: c(p) ==> g(p)
    ensures Filter(Filter(posts, g), c) == Filter(posts, c)
  {
    if |posts| > 0 {
      FilterOfFilter(posts[1..], g, c);
    }
  }

  /** Case does not matter: queries that lower alike give the same
      results. */
  lemma CaseInsensitive(posts: seq<Post>, q1: string, q2: string, t1: string, t2: string)
    requires Lower(q1) == Lower(q2) && Lower(t1) == Lower(t2)
    ensures GlobalMatch(posts, q1, t1) == GlobalMatch(posts, q2, t2)
    ensures CategoryMatch(posts, q1, t1) == CategoryMatch(posts, q2, t2)
  {
    TermBlank(t1);
    TermBlank(t2);
  }
}

=== FILE: posts.dfy ===
/** A blog post as the site stores it, and the structural check the loader
    applies to every record it reads. */
module Posts {
  import opened Wrappers
  import opened Json

  /** A validated post. `date` is the calendar-date text of the record. */
  datatype Post = Post(
    id: string, title: string, excerpt: string, content: string,
    author: string, date: string, category: string, image: string,
    readTime: int)

  /** A record as parsed from JSON, before validation: every field is
      whatever JSON value the file held (`JUndefined` when absent). */
  datatype Record = Record(
    id: JsValue, title: JsValue, excerpt: JsValue, content: JsValue,
    author: JsValue, date: JsValue, category: JsValue, image: JsValue,
    readTime: JsValue)

  /** `validateBlogPost`: the eight text fields are strings, `readTime` is a
      number, and `title` and `content` are non-empty. */
  predicate IsValid(r: Record)
    ensures IsValid(r) ==> r.title.JStr? && r.title.s != "" && r.content.JStr? && r.content.s != ""
  {
    && r.id.JStr? && r.title.JStr? && r.excerpt.JStr? && r.content.JStr?
    && r.author.JStr? && r.date.JStr? && r.category.JStr? && r.image.JStr?
    && r.readTime.JNum?
    && |r.title.s| > 0 && |r.content.s| > 0
  }

  /** The record a post is stored as. */
  function ToRecord(p: Post): Record {
    Record(JStr(p.id), JStr(p.title), JStr(p.excerpt), JStr(p.content),
           JStr(p.author), JStr(p.date), JStr(p.category), JStr(p.image),
           JNum(p.readTime))
  }

  /** The post a record stands for, when it passes validation; the post
      is exactly what the record holds. */
  function Validate(r: Record): (p: Option<Post>)
    ensures p.Some? <==> IsValid(r)
    ensures p.Some? ==> ToRecord(p.value) == r
  {
    if IsValid(r) then
      Some(Post(r.id.s, r.title.s, r.excerpt.s, r.content.s, r.author.s,
                r.date.s, r.category.s, r.image.s, r.readTime.n))
    else None
  }

  /** Storing a post and validating it gives the post back, exactly when its
      title and content are non-empty. */
  lemma ValidateToRecord(p: Post)
    ensures Validate(ToRecord(p)) == if p.title != "" && p.content != "" then Some(p) else None
  {
  }
}

=== FILE: query_state.dfy ===
/** The query state the search box and the category view keep, and the
    translate effect both run whenever the typed query changes. Timers and
    requests are explicit: `timer` is the debounced call not yet started
    (its payload is the trimmed query), `inFlight` the requests started and
    not yet answered. */
module QueryState {
  import opened Wrappers
  import opened Text
  import Classifier
  import Resolver

  datatype Query = Query(
    query: string,
    translated: string,
    translating: bool,
    timer: Option<string>,
    inFlight: seq<string>)

  const Initial: Query := Query("", "", false, None, [])

  /** The translate effect: any pending timer is cancelled; a blank query
      clears the translation, a non-English one is its own translation,
      and an English one schedules a request for its trimmed form. */
  function Effect(q: Query): (r: Query)
    ensures r.query == q.query && r.inFlight == q.inFlight
  {
    var trimmed := Trim(q.query);
    if trimmed == "" then q.(translated := "", translating := false, timer := None)
    else if Classifier.IsEnglish(trimmed) then q.(translating := true, timer := Some(trimmed))
    else q.(translated := trimmed, translating := false, timer := None)
  }

  /** Setting the typed query; the effect runs only when the value changes. */
  function SetQuery(q: Query, text: string): (r: Query)
    ensures r.query == text
    ensures text == q.query ==> r == q
  {
    if text == q.query then q else Effect(q.(query := text))
  }

  /** The debounce timer goes off and its request starts. */
  function TimerFires(q: Query): (r: Query)
    ensures r.query == q.query && r.translated == q.translated && r.timer.None?
  {
    match q.timer
    case None => q
    case Some(payload) => q.(timer := None, inFlight := q.inFlight + [payload])
  }

  /** The `i`-th request in flight settles with `reply`; whatever query it
      was for, its result becomes the translated query. */
  function Respond(q: Query, i: nat, reply: Resolver.Reply): (r: Query)
    ensures r.query == q.query && r.timer == q.timer
    ensures i < |q.inFlight| ==> r.translated == Resolver.Resolve(q.inFlight[i], reply) && !r.translating
    ensures i < |q.inFlight| ==> |r.inFlight| == |q.inFlight| - 1
  {
    if i < |q.inFlight| then
      q.(translated := Resolver.Resolve(q.inFlight[i], reply), translating := false,
         inFlight := q.inFlight[..i] + q.inFlight[i + 1..])
    else q
  }

  /** A pending timer always carries the current query, trimmed and
      English: the debounce keeps only the latest keystroke. */
  predicate TimerIsCurrent(q: Query) {
    q.timer.Some? ==> q.timer.value == Trim(q.query) && Classifier.IsEnglish(q.timer.value)
  }

  lemma TimerIsCurrentInitially()
    ensures TimerIsCurrent(Initial)
  {
  }

  lemma TimerIsCurrentPreserved(q: Query, text: string, i: nat, reply: Resolver.Reply)
    requires TimerIsCurrent(q)
    ensures TimerIsCurrent(SetQuery(q, text))
    ensures TimerIsCurrent(TimerFires(q))
    ensures TimerIsCurrent(Respond(q, i, reply))
  {
  }

  /** A blank query clears the translation at once and schedules nothing. */
  lemma BlankQueryClears(q: Query, text: string)
    requires text != q.query && AllSpace(text)
    ensures var r := SetQuery(q, text);
      r.translated == "" && r.timer.None? && !r.translating
  {
    TrimEmptyIffAllSpace(text);
  }

  /** A non-English query is its own translation, trimmed, at once. */
  lemma NonEnglishPassesThrough(q: Query, text: string)
    requires text != q.query && Trim(text) != "" && !Classifier.IsEnglish(Trim(text))
    ensures var r := SetQuery(q, text);
      r.translated == Trim(text) && r.timer.None? && !r.translating
  {
  }

  /** An English query leaves the old translation in place and schedules a
      request for its trimmed form. */
  lemma EnglishSchedules(q: Query, text: string)
    requires text != q.query && Classifier.IsEnglish(Trim(text))
    ensures SetQuery(q, text) == q.(query := text, translating := true, timer := Some(Trim(text)))
  {
  }

  /** An English query typed and its debounce timer gone off: the request
      for the trimmed query is in flight. */
  lemma EnglishSent(q: Query, text: string)
    requires text != q.query && Classifier.IsEnglish(Trim(text))
    ensures TimerFires(SetQuery(q, text))
      == q.(query := text, translating := true, timer := None, inFlight := q.inFlight + [Trim(text)])
  {
    var r := q.(query := text, translating := true, timer := Some(Trim(text)));
    assert SetQuery(q, text) == r by {
      EnglishSchedules(q, text);
    }
  }

  /** Of two requests in flight, the newer is answered first and the older
      last: the older one's result is what remains. */
  lemma OlderAnsweredLast(q: Query, replyA: Resolver.Reply, replyB: Resolver.Reply)
    requires |q.inFlight| == 2
    ensures var r := Respond(Respond(q, 1, replyB), 0, replyA);
      r.query == q.query && r.translated == Resolver.Resolve(q.inFlight[0], replyA) && r.inFlight == []
  {
    var r1 := Respond(q, 1, replyB);
    assert r1.inFlight == [q.inFlight[0]];
  }

  /** There is no generation check: when the request for an earlier query
      `a` is answered after the one for a later query `b`, the earlier
      query's translation is what remains, although `b` is on screen. */
  lemma LateReplyOverwrites(q: Query, a: string, b: string, replyA: Resolver.Reply, replyB: Resolver.Reply)
    requires q.inFlight == [] && a != q.query && b != a
    requires Classifier.IsEnglish(Trim(a)) && Classifier.IsEnglish(Trim(b))
    ensures
      var s1 := TimerFires(SetQuery(q, a));
      var s2 := TimerFires(SetQuery(s1, b));
      var s3 := Respond(Respond(s2, 1, replyB), 0, replyA);
      s3.query == b && s3.translated == Resolver.Resolve(Trim(a), replyA)
  {
    var s1 := TimerFires(SetQuery(q, a));
    EnglishSent(q, a);
    assert s1.inFlight == [Trim(a)] && s1.query == a;
    var s2 := TimerFires(SetQuery(s1, b));
    EnglishSent(s1, b);
    assert s2.inFlight == [Trim(a), Trim(b)] && s2.query == b;
    OlderAnsweredLast(s2, replyA, replyB);
  }
}

=== FILE: related_posts.dfy ===
/** The "related articles" section under a post: other posts of the same
    category, shuffled, at most three. The shuffle (`sort` with a random
    comparator) is an input: some reordering of the eligible posts. */
module RelatedPosts {
  import opened Wrappers
  import opened Seqs
  import opened Posts

  /** A post is related to `current` when it shares its category and has
      another id. */
  predicate IsRelated(current: Post, p: Post) {
    p.category == current.category && p.id != current.id
  }

  function RelatedTo(current: Post): Post -> bool {
    (p: Post) => IsRelated(current, p)
  }

  /** `allPosts.filter(...)`: the related posts, in list order. */
  function Eligible(current: Post, all: seq<Post>): (r: seq<Post>)
    ensures forall i :: 0 <= i < |r| ==> IsRelated(current, r[i]) && r[i] in all
    ensures forall i :: 0 <= i < |all| ==> (all[i] in r <==> IsRelated(current, all[i]))
    ensures multiset(r) <= multiset(all)
  {
    Filter(all, RelatedTo(current))
  }

  /** Together with `EligibleOne`: the related posts in list order, each
      as often as it occurs in the list. */
  lemma {:induction false} EligibleConcat(current: Post, a: seq<Post>, b: seq<Post>)
    ensures Eligible(current, a + b) == Eligible(current, a) + Eligible(current, b)
  {
    FilterConcat(a, b, RelatedTo(current));
  }

  lemma {:induction false} EligibleOne(current: Post, p: Post)
    ensures Eligible(current, [p]) == if IsRelated(current, p) then [p] else []
  {
    FilterSingleton(p, RelatedTo(current));
  }

  const MaxShown: nat := 3

  /** The first three of the shuffled list: as many as there are eligible
      posts up to three, each one eligible. */
  lemma ShownFacts(current: Post, all: seq<Post>, shuffled: seq<Post>)
    requires multiset(shuffled) == multiset(Eligible(current, all))
    ensures var shown := Slice(shuffled, 0, MaxShown);
      && |shown| == (if |Eligible(current, all)| < MaxShown then |Eligible(current, all)| else MaxShown)
      && multiset(shown) <= multiset(Eligible(current, all))
      && forall i :: 0 <= i < |shown| ==> IsRelated(current, shown[i]) && shown[i] in all
  {
    var shown := Slice(shuffled, 0, MaxShown);
    var eligible := Eligible(current, all);
    assert |shuffled| == |eligible| by {
      assert |multiset(shuffled)| == |multiset(eligible)|;
    }
    assert multiset(shown) <= multiset(shuffled) by {
      assert shuffled == shown + shuffled[|shown|..];
    }
    forall i | 0 <= i < |shown| ensures IsRelated(current, shown[i]) && shown[i] in all {
      assert shown[i] in multiset(eligible);
    }
  }

  /** Nothing is eligible exactly when no post is related. */
  lemma NoneEligible(current: Post, all: seq<Post>)
    ensures |Eligible(current, all)| == 0 <==> forall i :: 0 <= i < |all| ==> !IsRelated(current, all[i])
  {
    var eligible := Eligible(current, all);
    if |eligible| > 0 {
      var p := eligible[0];
      assert IsRelated(current, p) && p in all;
      var i :| 0 <= i < |all| && all[i] == p;
      assert IsRelated(current, all[i]);
    }
  }

  /** The posts the section shows, or `None` when it renders nothing.
      `shuffled` is the eligible list after the random sort. */
  function Related(current: Post, all: seq<Post>, shuffled: seq<Post>): (r: Option<seq<Post>>)
    requires multiset(shuffled) == multiset(Eligible(current, all))
    ensures r.None? <==> forall i :: 0 <= i < |all| ==> !IsRelated(current, all[i])
    ensures r.Some? ==>
      |r.value| == if |Eligible(current, all)| < MaxShown then |Eligible(current, all)| else MaxShown
    ensures r.Some? ==> multiset(r.value) <= multiset(Eligible(current, all))
    ensures r.Some? ==> forall i :: 0 <= i < |r.value| ==> IsRelated(current, r.value[i]) && r.value[i] in all
  {
    ShownFacts(current, all, shuffled);
    NoneEligible(current, all);
    var shown := Slice(shuffled, 0, MaxShown);
    if |shown| == 0 then None else Some(shown)
  }

  /** Whatever the shuffle, the section shows the same number of posts and
      only posts related to `current`. */
  lemma ShuffleOnlyReorders(current: Post, all: seq<Post>, s1: seq<Post>, s2: seq<Post>)
    requires multiset(s1) == multiset(Eligible(current, all))
    requires multiset(s2) == multiset(Eligible(current, all))
    ensures Related(current, all, s1).None? <==> Related(current, all, s2).None?
    ensures Related(current, all, s1).Some? ==>
      |Related(current, all, s1).value| == |Related(current, all, s2).value|
  {
  }

  /** The post itself is never among its related posts. */
  lemma NeverItself(current: Post, all: seq<Post>, shuffled: seq<Post>)
    requires multiset(shuffled) == multiset(Eligible(current, all))
    ensures Related(current, all, shuffled).Some? ==> current !in Related(current, all, shuffled).value
  {
  }
}

=== FILE: resolver.dfy ===
/** How the search box and the category view turn the reply of the
    translation endpoint into the query they search with. Both components
    carry the same three branches word for word: a successful reply, a
    non-success status, and a thrown exception. */
module Resolver {
  import opened Wrappers
  import opened Text
  import Fallback

  /** The outcome of the client's request to the translation endpoint:
      a successful response with its `translated` field (`None` when the
      field is absent or not a string), a response with a non-success
      status, or an exception (network failure, unreadable body). */
  datatype Reply = Served(translated: Option<string>) | Refused | Threw

  /** The service's text counts only when it is non-empty and differs from
      the query; otherwise the dictionary fallback decides. */
  predicate UsesService(trimmed: string, reply: Reply) {
    reply.Served? && reply.translated.Some?
    && reply.translated.value != "" && reply.translated.value != trimmed
  }

  /** The translated query a settled request produces for `trimmed`. */
  function Resolve(trimmed: string, reply: Reply): (r: string)
    ensures UsesService(trimmed, reply) ==> r == reply.translated.value
    ensures !UsesService(trimmed, reply) ==> r == Fallback.Apply(trimmed)
  {
    match reply
    case Served(t) =>
      var translated := if t.Some? && t.value != "" then t.value else trimmed;
      if translated == trimmed then Fallback.Apply(trimmed) else translated
    case Refused => Fallback.Apply(trimmed)
    case Threw => Fallback.Apply(trimmed)
  }

  /** A missing or empty answer, an answer equal to the query, a
      non-success status and an exception all end in the same place: the
      dictionary fallback applied to the query. */
  lemma FailurePathsAgree(trimmed: string)
    ensures Resolve(trimmed, Served(None)) == Fallback.Apply(trimmed)
    ensures Resolve(trimmed, Served(Some(""))) == Fallback.Apply(trimmed)
    ensures Resolve(trimmed, Served(Some(trimmed))) == Fallback.Apply(trimmed)
    ensures Resolve(trimmed, Refused) == Fallback.Apply(trimmed)
    ensures Resolve(trimmed, Threw) == Fallback.Apply(trimmed)
  {
  }

  /** The successful-response branch as written: `data.translated ||
      trimmedQuery`, then the dictionary loop when nothing changed. */
  method OnServed(trimmedQuery: string, served: Option<string>) returns (translated: string)
    ensures translated == Resolve(trimmedQuery, Served(served))
  {
    translated := if served.Some? && served.value != "" then served.value else trimmedQuery;
    if translated == trimmedQuery {
      var lowerQuery := Lower(trimmedQuery);
      translated := Fallback.Scan(lowerQuery, translated);
    }
  }

  /** The non-success and exception branches, which are the same code:
      start from the query and run the dictionary loop. */
  method OnFailure(trimmedQuery: string) returns (translated: string)
    ensures translated == Resolve(trimmedQuery, Refused)
    ensures translated == Resolve(trimmedQuery, Threw)
  {
    var lowerQuery := Lower(trimmedQuery);
    translated := trimmedQuery;
    translated := Fallback.Scan(lowerQuery, translated);
  }
}

=== FILE: search_box.dfy ===
/** The header search box: a drop-down that searches every post with the
    typed query and its translation. */
module SearchBox {
  import opened Text
  import opened Posts
  import Classifier
  import QueryState
  import Matcher

  datatype Search = Search(open: bool, q: QueryState.Query)

  const Initial: Search := Search(false, QueryState.Initial)

  /** The search icon is clicked. */
  function Open(s: Search): (r: Search)
    ensures r.open && r.q == s.q
  {
    s.(open := true)
  }

  /** A keystroke in the input. */
  function Type(s: Search, text: string): (r: Search)
    ensures r.open == s.open && r.q.query == text
  {
    s.(q := QueryState.SetQuery(s.q, text))
  }

  /** The clear button: the query and the translation are both emptied. */
  function Clear(s: Search): (r: Search)
    ensures r.q.query == "" && r.q.translated == ""
  {
    s.(q := QueryState.SetQuery(s.q.(translated := ""), ""))
  }

  /** A click outside the box, or on a result: the box closes and the
      query is emptied. */
  function Close(s: Search): (r: Search)
    ensures !r.open && r.q.query == ""
  {
    s.(open := false, q := QueryState.SetQuery(s.q, ""))
  }

  /** The result list the box keeps in step with the query state. */
  function Results(s: Search, posts: seq<Post>): (r: seq<Post>)
    ensures Trim(s.q.translated) == "" ==> r == []
    ensures forall i :: 0 <= i < |r| ==> r[i] in posts
  {
    Matcher.GlobalMatch(posts, s.q.query, s.q.translated)
  }

  /** The box says which translation it searched with when there is one
      that differs from what was typed. */
  predicate ShowsTranslation(s: Search) {
    s.q.translated != "" && s.q.translated != s.q.query
  }

  /** Typing a blank query empties the results at once. */
  lemma BlankTypingEmptiesResults(s: Search, text: string, posts: seq<Post>)
    requires text != s.q.query && AllSpace(text)
    ensures Results(Type(s, text), posts) == []
  {
    QueryState.BlankQueryClears(s.q, text);
  }

  /** Clearing empties the results and hides any translation notice. */
  lemma ClearEmptiesResults(s: Search, posts: seq<Post>)
    ensures Results(Clear(s), posts) == [] && !ShowsTranslation(Clear(s))
  {
  }

  /** Closing a box with a typed query empties its results. */
  lemma CloseEmptiesResults(s: Search, posts: seq<Post>)
    requires s.q.query != ""
    ensures Results(Close(s), posts) == []
  {
    QueryState.BlankQueryClears(s.q, "");
  }

  /** A Hindi or otherwise non-English query searches with itself at once,
      with no translation notice. */
  lemma NonEnglishSearchesAtOnce(s: Search, text: string, posts: seq<Post>)
    requires text != s.q.query && Trim(text) != "" && !Classifier.IsEnglish(Trim(text))
    ensures var r := Type(s, text);
      r.q.translated == Trim(text)
      && Results(r, posts) == Matcher.GlobalMatch(posts, text, Trim(text))
  {
    QueryState.NonEnglishPassesThrough(s.q, text);
  }
}

=== FILE: seqs.dfy ===
/** Sequence operations of `Array.prototype` that the site relies on:
    the stable `filter` and the index-clamping `slice`. */
module Seqs {

  /** `s.filter(keep)`: the elements satisfying `keep`, in their order. */
  function Filter<T>(s: seq<T>, keep: T -> bool): (r: seq<T>)
    ensures |r| <= |s|
    ensures forall i :: 0 <= i < |r| ==> keep(r[i]) && r[i] in s
    ensures forall i :: 0 <= i < |s| ==> (s[i] in r <==> keep(s[i]))
    ensures multiset(r) <= multiset(s)
  {
    if |s| == 0 then []
    else
      var rest := Filter(s[1..], keep);
      assert forall i :: 1 <= i < |s| ==> s[i] == s[1..][i - 1];
      assert s == [s[0]] + s[1..];
      assert multiset(s) == multiset{s[0]} + multiset(s[1..]);
      if keep(s[0]) then [s[0]] + rest
      else
        assert s[0] !in rest;
        rest
  }

  /** Filtering distributes over concatenation; together with the
      one-element case this pins the filter down as order-preserving. */
  lemma {:induction false} FilterConcat<T>(a: seq<T>, b: seq<T>, keep: T -> bool)
    ensures Filter(a + b, keep) == Filter(a, keep) + Filter(b, keep)
  {
    if |a| == 0 {
      assert a + b == b;
    } else {
      assert (a + b)[1..] == a[1..] + b;
      FilterConcat(a[1..], b, keep);
    }
  }

  lemma FilterSingleton<T>(x: T, keep: T -> bool)
    ensures Filter([x], keep) == if keep(x) then [x] else []
  {
  }

  /** Keeping every element gives the sequence back. */
  lemma {:induction false} FilterAll<T>(s: seq<T>, keep: T -> bool)
    requires forall i :: 0 <= i < |s| ==> keep(s[i])
    ensures Filter(s, keep) == s
  {
    if |s| > 0 {
      FilterAll(s[1..], keep);
    }
  }

  /** Keeping nothing gives nothing. */
  lemma {:induction false} FilterNone<T>(s: seq<T>, keep: T -> bool)
    requires forall i :: 0 <= i < |s| ==> !keep(s[i])
    ensures Filter(s, keep) == []
  {
    if |s| > 0 {
      FilterNone(s[1..], keep);
    }
  }

  /** Filtering keeps the relative order of what it keeps: a relation that
      holds between every earlier and later element of `s` still holds in
      the result. */
  lemma {:induction false} FilterKeepsOrder<T>(s: seq<T>, keep: T -> bool, before: (T, T) -> bool)
    requires forall j, k {:trigger before(s[j], s[k])} :: 0 <= j < k < |s| ==> before(s[j], s[k])
    ensures forall j, k {:trigger before(Filter(s, keep)[j], Filter(s, keep)[k])} :: 0 <= j < k < |Filter(s, keep)| ==>
      before(Filter(s, keep)[j], Filter(s, keep)[k])
  {
    if |s| > 0 {
      var tail := s[1..];
      forall j, k | 0 <= j < k < |tail| ensures before(tail[j], tail[k]) {
        assert tail[j] == s[j + 1] && tail[k] == s[k + 1];
      }
      FilterKeepsOrder(tail, keep, before);
      var rest := Filter(tail, keep);
      if keep(s[0]) {
        forall k | 0 <= k < |rest| ensures before(s[0], rest[k]) {
          var t :| 0 <= t < |tail| && tail[t] == rest[k];
          assert s[t + 1] == rest[k];
        }
        ConsKeepsOrder(s[0], rest, before);
        assert Filter(s, keep) == [s[0]] + rest;
      } else {
        assert Filter(s, keep) == rest;
      }
    }
  }

  /** Putting in front an element that goes before every element of an
      ordered sequence keeps it ordered. */
  lemma ConsKeepsOrder<T>(x: T, s: seq<T>, before: (T, T) -> bool)
    requires forall k :: 0 <= k < |s| ==> before(x, s[k])
    requires forall j, k {:trigger before(s[j], s[k])} :: 0 <= j < k < |s| ==> before(s[j], s[k])
    ensures forall j, k {:trigger before(([x] + s)[j], ([x] + s)[k])} :: 0 <= j < k < |[x] + s| ==>
      before(([x] + s)[j], ([x] + s)[k])
  {
    var r := [x] + s;
    forall j, k | 0 <= j < k < |r| ensures before(r[j], r[k]) {
      assert r[k] == s[k - 1];
      if j > 0 {
        assert r[j] == s[j - 1];
      }
    }
  }

  /** Two predicates that agree on the elements give the same filter. */
  lemma {:induction false} FilterCongruent<T>(s: seq<T>, f: T -> bool, g: T -> bool)
    requires forall i :: 0 <= i < |s| ==> f(s[i]) == g(s[i])
    ensures Filter(s, f) == Filter(s, g)
  {
    if |s| > 0 {
      FilterCongruent(s[1..], f, g);
    }
  }

  /** How `slice` turns one argument into an index: negative counts from
      the end, and the result is clamped to `[0, len]`. */
  function SliceIndex(len: nat, x: int): (k: nat)
    ensures k <= len
    ensures 0 <= x <= len ==> k == x
    ensures x > len ==> k == len
    ensures x < 0 && -x <= len ==> k == len + x
    ensures x + len < 0 ==> k == 0
  {
    if x < 0 then (if len + x < 0 then 0 else len + x)
    else if x < len then x else len
  }

  /** `s.slice(start, end)`: the run of `s` from the start index up to the
      end index, empty when the end index does not come after the start. */
  function Slice<T>(s: seq<T>, start: int, end: int): (r: seq<T>)
    ensures SliceIndex(|s|, start) + |r| <= |s|
    ensures r == s[SliceIndex(|s|, start)..SliceIndex(|s|, start) + |r|]
    ensures |r| == if SliceIndex(|s|, start) <= SliceIndex(|s|, end)
                   then SliceIndex(|s|, end) - SliceIndex(|s|, start) else 0
    ensures 0 <= start <= end <= |s| ==> r == s[start..end]
  {
    var a, b := SliceIndex(|s|, start), SliceIndex(|s|, end);
    if a <= b then s[a..b] else []
  }

  /** A negative end drops that many elements from the back. */
  lemma SliceDropsFromEnd<T>(s: seq<T>, n: nat)
    requires 0 < n <= |s|
    ensures Slice(s, 0, -(n as int)) == s[..|s| - n]
  {
  }

  /** A start at or past the end index gives nothing. */
  lemma SliceCrossing<T>(s: seq<T>, start: int, end: int)
    requires SliceIndex(|s|, end) <= SliceIndex(|s|, start)
    ensures Slice(s, start, end) == []
  {
  }

  /** `slice(0, n)` with `n >= 0` is the first `min(n, |s|)` elements. */
  lemma SlicePrefix<T>(s: seq<T>, n: int)
    requires n >= 0
    ensures Slice(s, 0, n) == if n <= |s| then s[..n] else s
  {
  }
}

=== FILE: text.dfy ===
/** String primitives of the JavaScript runtime that the site relies on:
    `String.prototype.trim`, the regular-expression class `\s`,
    `toLowerCase` (on the ASCII letters) and `includes`. Strings are
    sequences of characters. */
module Text {

  /** The characters JavaScript's `trim` removes and `\s` matches:
      the ECMAScript WhiteSpace and LineTerminator code points. */
  predicate IsSpace(c: char) {
    || c == '\t' || c == '\n' || c == '\U{000B}' || c == '\U{000C}' || c == '\r'
    || c == ' ' || c == '\U{00A0}' || c == '\U{1680}'
    || ('\U{2000}' <= c <= '\U{200A}')
    || c == '\U{2028}' || c == '\U{2029}' || c == '\U{202F}' || c == '\U{205F}'
    || c == '\U{3000}' || c == '\U{FEFF}'
  }

  /** The characters that end a line; the regular-expression `.` does not
      match them. */
  predicate IsLineTerminator(c: char) {
    c == '\n' || c == '\r' || c == '\U{2028}' || c == '\U{2029}'
  }

  /** A code point of the Devanagari block, U+0900 to U+097F. */
  predicate IsDevanagari(c: char) {
    '\U{0900}' <= c <= '\U{097F}'
  }

  /** The index of the first non-white-space character at or after `i`,
      or `|s|` when there is none. */
  function SkipSpace(s: string, i: nat): (k: nat)
    requires i <= |s|
    ensures i <= k <= |s|
    ensures forall m :: i <= m < k ==> IsSpace(s[m])
    ensures k < |s| ==> !IsSpace(s[k])
    decreases |s| - i
  {
    if i < |s| && IsSpace(s[i]) then SkipSpace(s, i + 1) else i
  }

  /** The index just past the last non-white-space character before `j`
      and at or after `lo`, or `lo` when there is none. */
  function SkipSpaceBack(s: string, lo: nat, j: nat): (k: nat)
    requires lo <= j <= |s|
    ensures lo <= k <= j
    ensures forall m :: k <= m < j ==> IsSpace(s[m])
    ensures k > lo ==> !IsSpace(s[k - 1])
    decreases j
  {
    if j > lo && IsSpace(s[j - 1]) then SkipSpaceBack(s, lo, j - 1) else j
  }

  /** The number of white-space characters `trim` cuts from the front. */
  function Lead(s: string): (k: nat)
    ensures k <= |s|
  {
    SkipSpace(s, 0)
  }

  /** `s.trim()`: the infix of `s` starting after its leading white space
      that neither starts nor ends with white space; everything cut away is
      white space. */
  function Trim(s: string): (r: string)
    ensures Lead(s) + |r| <= |s| && r == s[Lead(s)..Lead(s) + |r|]
    ensures forall i :: 0 <= i < Lead(s) ==> IsSpace(s[i])
    ensures forall i :: Lead(s) + |r| <= i < |s| ==> IsSpace(s[i])
    ensures |r| > 0 ==> !IsSpace(r[0]) && !IsSpace(r[|r| - 1])
  {
    var lead := Lead(s);
    s[lead..SkipSpaceBack(s, lead, |s|)]
  }

  /** Every character of `s` is white space. */
  predicate AllSpace(s: string) {
    forall i :: 0 <= i < |s| ==> IsSpace(s[i])
  }

  /** A string with no white space at either end trims to itself. */
  lemma TrimOfTrimmed(s: string)
    requires |s| == 0 || (!IsSpace(s[0]) && !IsSpace(s[|s| - 1]))
    ensures Trim(s) == s
  {
  }

  /** Trimming twice changes nothing more. */
  lemma TrimIdempotent(s: string)
    ensures Trim(Trim(s)) == Trim(s)
  {
    TrimOfTrimmed(Trim(s));
  }

  /** A string trims to "" exactly when it is all white space. */
  lemma TrimEmptyIffAllSpace(s: string)
    ensures Trim(s) == "" <==> AllSpace(s)
  {
  }

  /** The ASCII case mapping `toLowerCase` applies to English text; other
      code points, among them all of Devanagari, are left alone. */
  function LowerChar(c: char): (r: char)
    ensures IsSpace(r) <==> IsSpace(c)
    ensures IsDevanagari(c) ==> r == c
  {
    if 'A' <= c <= 'Z' then (c as int + 32) as char else c
  }

  function Lower(s: string): (r: string)
    ensures |r| == |s|
    ensures forall i :: 0 <= i < |s| ==> r[i] == LowerChar(s[i])
  {
    seq(|s|, i requires 0 <= i < |s| => LowerChar(s[i]))
  }

  /** Lowering is idempotent: lowering a lowered string is the identity. */
  lemma LowerIdempotent(s: string)
    ensures Lower(Lower(s)) == Lower(s)
  {
  }

  /** `sub` occurs in `s` starting at index `i`. */
  predicate OccursAt(s: string, sub: string, i: int) {
    0 <= i && i + |sub| <= |s| && s[i..i + |sub|] == sub
  }

  /** `s.includes(sub)`, computed by sliding a window over `s`. */
  function Contains(s: string, sub: string): (r: bool)
    ensures r <==> exists i :: OccursAt(s, sub, i)
    decreases |s|
  {
    if |sub| > |s| then
      assert forall i :: !OccursAt(s, sub, i);
      false
    else if s[..|sub|] == sub then
      assert OccursAt(s, sub, 0);
      true
    else
      var r := Contains(s[1..], sub);
      assert forall i :: OccursAt(s[1..], sub, i) <==> OccursAt(s, sub, i + 1) by {
        forall i ensures OccursAt(s[1..], sub, i) <==> OccursAt(s, sub, i + 1) {
          if 0 <= i && i + |sub| <= |s| - 1 {
            assert s[1..][i..i + |sub|] == s[i + 1..i + 1 + |sub|];
          }
        }
      }
      assert !OccursAt(s, sub, 0);
      assert r ==> exists i :: OccursAt(s, sub, i) by {
        if r { var i :| OccursAt(s[1..], sub, i); assert OccursAt(s, sub, i + 1); }
      }
      assert (exists i :: OccursAt(s, sub, i)) ==> r by {
        if exists i :: OccursAt(s, sub, i) {
          var i :| OccursAt(s, sub, i);
          assert i != 0;
          assert OccursAt(s[1..], sub, i - 1);
        }
      }
      r
  }

  /** The empty string occurs in every string. */
  lemma ContainsEmpty(s: string)
    ensures Contains(s, "")
  {
    assert OccursAt(s, "", 0);
  }

  /** `s.endsWith(suffix)`. */
  predicate EndsWith(s: string, suffix: string) {
    |suffix| <= |s| && s[|s| - |suffix|..] == suffix
  }

  /** The decimal text JavaScript's `String(n)` gives an integer. */
  function Decimal(n: int): (r: string)
    ensures |r| > 0
    ensures n < 0 <==> r[0] == '-'
    decreases if n < 0 then 1 - n else n
  {
    if n < 0 then "-" + Digits(-n) else Digits(n)
  }

  function Digits(n: nat): (r: string)
    ensures |r| > 0 && '0' <= r[0] <= '9'
    ensures forall i :: 0 <= i < |r| ==> '0' <= r[i] <= '9'
  {
    if n < 10 then [('0' as int + n) as char]
    else Digits(n / 10) + [('0' as int + n % 10) as char]
  }
}

=== FILE: translate_route.dfy ===
/** The translation endpoint (`POST /api/translate`): it checks the
    request's `text`, answers Hindi or other non-English text directly,
    and otherwise asks the public translation service, whose reply is
    reduced to a string with the dictionary fallback as the last resort. */
module TranslateRoute {
  import opened Wrappers
  import opened Text
  import opened Json
  import Classifier
  import Fallback
  import Resolver

  /** The upstream service's answer: a non-success status, or a body whose
      `data[0]` is an array of items (each item an array whose first element
      is a text fragment) or is missing / not an array (`None`). */
  datatype Upstream = UpstreamFailed | UpstreamOk(data0: Option<seq<seq<JsValue>>>)

  /** Status 400, or a 200 body `{ translated, original }`. */
  datatype Response = BadRequest | Ok(translated: string, original: string)

  /** What the route decides before any network traffic. */
  datatype Gate = Reject | Answer(trimmed: string) | Forward(trimmed: string)

  function Admit(text: JsValue): (g: Gate)
    ensures g.Reject? <==> !(text.JStr? && text.s != "")
    ensures g.Answer? ==> g.trimmed == Trim(text.s) && !Classifier.IsEnglish(g.trimmed)
    ensures g.Forward? ==> g.trimmed == Trim(text.s) && g.trimmed != "" && Classifier.IsEnglish(g.trimmed)
  {
    if !Truthy(text) || !text.JStr? then Reject
    else
      var trimmed := Trim(text.s);
      if trimmed == "" || !Classifier.IsEnglish(trimmed) then Answer(trimmed)
      else Forward(trimmed)
  }

  function FirstOf(item: seq<JsValue>): JsValue {
    if |item| > 0 then item[0] else JUndefined
  }

  /** What one item adds to the joined text: nothing when `filter(Boolean)`
      drops its first element, that element's `String()` otherwise. */
  function Contribution(v: JsValue): string {
    if Truthy(v) then ToText(v) else ""
  }

  /** `data[0].map(item => item[0]).filter(Boolean).join('')`. */
  function Extract(items: seq<seq<JsValue>>): (r: string)
    ensures (forall i :: 0 <= i < |items| ==> !Truthy(FirstOf(items[i]))) ==> r == ""
    ensures |items| == 1 && FirstOf(items[0]).JStr? ==> r == FirstOf(items[0]).s
  {
    if |items| == 0 then ""
    else
      var v := FirstOf(items[0]);
      (if Truthy(v) then ToText(v) else "") + Extract(items[1..])
  }

  /** Extraction works fragment by fragment, in order. */
  lemma {:induction false} ExtractConcat(a: seq<seq<JsValue>>, b: seq<seq<JsValue>>)
    ensures Extract(a + b) == Extract(a) + Extract(b)
  {
    if |a| == 0 {
      assert a + b == b;
    } else {
      assert (a + b)[1..] == a[1..] + b;
      ExtractConcat(a[1..], b);
    }
  }

  /** The extraction is empty exactly when no item contributes text; when
      no first element is an array, that is exactly when every first
      element is falsy (a truthy array such as `[]` can still print as
      nothing). */
  lemma {:induction false} ExtractEmptyIffAllFalsy(items: seq<seq<JsValue>>)
    ensures Extract(items) == "" <==> forall i :: 0 <= i < |items| ==> Contribution(FirstOf(items[i])) == ""
    ensures (forall i :: 0 <= i < |items| ==> !FirstOf(items[i]).JArray?) ==>
              (Extract(items) == "" <==> forall i :: 0 <= i < |items| ==> !Truthy(FirstOf(items[i])))
  {
    if |items| > 0 {
      ExtractEmptyIffAllFalsy(items[1..]);
      assert forall i :: 1 <= i < |items| ==> items[i] == items[1..][i - 1];
    }
  }

  /** An item whose first element is the empty array passes
      `filter(Boolean)` and still adds nothing to the text. */
  lemma EmptyArrayAddsNothing()
    ensures Truthy(FirstOf([JArray([])]))
    ensures Extract([[JArray([])]]) == ""
  {
    assert [[JArray([])]][1..] == [];
  }

  /** The text the route reads out of a successful upstream body: the
      extraction when `data[0]` is an array, the input otherwise. */
  function Extracted(trimmed: string, data0: Option<seq<seq<JsValue>>>): (r: string)
    ensures data0.None? ==> r == trimmed
    ensures data0.Some? && |data0.value| == 0 ==> r == ""
  {
    match data0
    case None => trimmed
    case Some(items) => Extract(items)
  }

  /** Lines 63-87 of the route: the dictionary replaces an extraction that is
      empty or equal to the input, and an empty choice falls back to the
      input. In effect the service's text is kept exactly when it is new and
      non-empty, and the dictionary fallback decides otherwise. */
  function Choose(trimmed: string, extracted: string): (r: string)
    ensures r == if extracted == trimmed || extracted == "" then Fallback.Apply(trimmed) else extracted
    ensures trimmed != "" ==> r != ""
  {
    var picked :=
      if extracted == trimmed || extracted == "" then
        Fallback.FirstHit(Lower(trimmed), Fallback.PartialWords).GetOr(extracted)
      else extracted;
    if picked == "" then trimmed else picked
  }

  /** Lines 55-87 as written, with the dictionary loop. */
  method ChooseByCode(trimmedText: string, data0: Option<seq<seq<JsValue>>>) returns (response: Response)
    ensures response == Ok(Choose(trimmedText, Extracted(trimmedText, data0)), trimmedText)
  {
    var translated := trimmedText;
    if data0.Some? {
      translated := Extract(data0.value);
    }
    if translated == trimmedText || translated == "" {
      var lowerQuery := Lower(trimmedText);
      translated := Fallback.Scan(lowerQuery, translated);
    }
    response := Ok(if translated == "" then trimmedText else translated, trimmedText);
  }

  /** The whole route for a request whose body has the field `text`. */
  function Post(text: JsValue, upstream: Upstream): (r: Response)
    ensures r.BadRequest? <==> !(text.JStr? && text.s != "")
    ensures r.Ok? ==> r.original == Trim(text.s)
  {
    match Admit(text)
    case Reject => BadRequest
    case Answer(trimmed) => Ok(trimmed, trimmed)
    case Forward(trimmed) =>
      match upstream
      case UpstreamFailed => Ok(trimmed, trimmed)
      case UpstreamOk(data0) => Ok(Choose(trimmed, Extracted(trimmed, data0)), trimmed)
  }

  /** Empty-after-trim and non-English text is answered with itself and the
      upstream service plays no part in the answer. */
  lemma NoCallWithoutEnglish(text: JsValue, u1: Upstream, u2: Upstream)
    requires text.JStr? && text.s != ""
    requires !Classifier.IsEnglish(Trim(text.s))
    ensures Post(text, u1) == Post(text, u2) == Ok(Trim(text.s), Trim(text.s))
  {
  }

  /** A non-success upstream status returns the input untouched: this path
      does not consult the dictionary. */
  lemma FailedUpstreamIsIdentity(text: JsValue)
    requires Admit(text).Forward?
    ensures Post(text, UpstreamFailed) == Ok(Trim(text.s), Trim(text.s))
  {
  }

  /** The answer for non-blank input is never empty. */
  lemma TranslatedNonEmpty(text: JsValue, upstream: Upstream)
    requires text.JStr? && Trim(text.s) != ""
    ensures Post(text, upstream).translated != ""
  {
  }

  /** What the search box ends up searching for when it asks this route to
      translate its trimmed English query `t`: the service's text when it is
      new and non-empty, and otherwise the dictionary fallback. The client
      applies the dictionary again when the route echoes the query, so a
      failed upstream call still gets the dictionary word. */
  lemma ClientOverRoute(t: string, upstream: Upstream)
    requires t != "" && Trim(t) == t && Classifier.IsEnglish(t)
    ensures var reply := Resolver.Served(Some(Post(JStr(t), upstream).translated));
      var useService := upstream.UpstreamOk?
        && Extracted(t, upstream.data0) != "" && Extracted(t, upstream.data0) != t;
      Resolver.Resolve(t, reply) == if useService then Extracted(t, upstream.data0) else Fallback.Apply(t)
  {
    Fallback.ApplyRange(t);
  }

  /** With the service down, an English query ends as its dictionary
      fallback in the search box. */
  lemma ServiceDownGivesDictionary(t: string)
    requires t != "" && Trim(t) == t && Classifier.IsEnglish(t)
    ensures Resolver.Resolve(t, Resolver.Served(Some(Post(JStr(t), UpstreamFailed).translated)))
      == Fallback.Apply(t)
  {
    ClientOverRoute(t, UpstreamFailed);
  }

  /** The worked scenario: "jain philosophy" with the translation service
      down ends as "जैन" in the search box. */
  lemma ServiceDownScenario()
    ensures Resolver.Resolve("jain philosophy",
      Resolver.Served(Some(Post(JStr("jain philosophy"), UpstreamFailed).translated))) == "जैन"
  {
    Classifier.EnglishExample();
    TrimOfTrimmed("jain philosophy");
    ServiceDownGivesDictionary("jain philosophy");
    Fallback.JainExample();
  }
}

=== FILE: wrappers.dfy ===
/** The optional-value datatype used wherever the source returns `null`,
    `undefined` or "not found". */
module Wrappers {

  datatype Option<+T> = None | Some(value: T) {

    /** The wrapped value, or `default` when there is none. */
    function GetOr(default: T): T {
      match this
      case Some(v) => v
      case None => default
    }
  }
}
